=== FILE: README.md ===
# dynamic-add-date: audit timestamps injected by a MyBatis interceptor

`AddDateInterceptor` is a MyBatis plugin. It adds a creation-time and a modification-time column to every INSERT, and a modification-time column to every UPDATE, unless the target table matches one of the configured ignore patterns. The plugin hooks two points:

- **prepare phase.** It rewrites the parsed statement.
  - INSERT: for each audit column, it overwrites the value slot of every row when the column list already names the column, and otherwise appends the column and a timestamp literal to every row.
  - UPDATE: it does the same for the modification column on the parallel column and expression lists, once for each target table that is not ignored.
- **bind phase.** It removes, in place through an iterator, every parameter mapping bound to the camel-cased name of an audit column. This keeps the mapping count in step with the rewritten placeholders.

The model is split into modules:

| module | file | contents |
|---|---|---|
| `Statements` | `statements.dfy` | the parsed statement as objects: `Insert` and `Update` classes whose lists are fields, the value rows, `BoundSql` with its mapping list, and the three exceptions this model represents (UnsupportedOperation, IllegalState, ClassCast) |
| `Columns` | `columns.dfy` | the index the column scan records; the scan overwrites on every hit, so the last occurrence wins |
| `IgnoreTables` | `ignore_tables.dfy` | `matchesIgnoreTables`, and the non-ignored UPDATE targets |
| `Configuration` | `configuration.dfy` | `setProperties`, with Java's `String.trim` and `String.split(",")` written out |
| `InsertRewrite` | `insert_rewrite.dfy` | the INSERT rewrite as a function on values, its properties, and `intoValue`/`intoValueWithIndex` as methods changing an `Insert` in place |
| `UpdateRewrite` | `update_rewrite.dfy` | the UPDATE rewrite pass, repeated passes, and `updateValue`/`updateValueWithIndex` |
| `ParameterMappings` | `parameter_mappings.dfy` | the pruning specification, and `handleParameterMapping` as an iterator loop over `BoundSql` |
| `Interceptor` | `interceptor.dfy` | class `AddDateInterceptor`: its configuration fields, `SetProperties`, the prepare-phase and bind-phase entry points, the scans, and the per-table loops |

Each imperative method is proved against a specification function:

- `IntoValue` and `IntoValueWithIndex` equal `AppendSlot`/`SetSlot`;
- `PrepareInsert` satisfies `InsertPrepared`. For a non-ignored INSERT that is not a sub-select, this is `RewriteInsert`. An ignored table is left unchanged. A sub-select fails, with the create column already appended when it was absent;
- `RewriteTables` equals `RewriteUpdatePasses`;
- `HandleParameterMapping` equals `PruneMappings`.

The lemmas state the promised properties about those functions.

## Model

| member | source | states |
|---|---|---|
| Columns.LastIndexOf | src/main/java/io/github/yidasanqian/AddDateInterceptor.java:71-85 | -1 exactly when the name is absent; otherwise an index holding the name with no later occurrence, so the last match wins |
| Columns.LastIndexOfAppend | src/main/java/io/github/yidasanqian/AddDateInterceptor.java:87-97 | appending names other than `name` does not move the recorded index of a name already present |
| Interceptor.ScanInsertColumns | src/main/java/io/github/yidasanqian/AddDateInterceptor.java:71-85 | each flag is true exactly when its column is named; each index is the last occurrence when named, and 0 otherwise |
| Interceptor.ScanUpdateColumns | src/main/java/io/github/yidasanqian/AddDateInterceptor.java:108-116 | the flag is true exactly when the update column is named; the index is its last occurrence, and 0 otherwise |
| InsertRewrite.SetSlot | src/main/java/io/github/yidasanqian/AddDateInterceptor.java:204-226 | same items shape and row count; every row is the old row with only slot k replaced |
| InsertRewrite.AppendSlot | src/main/java/io/github/yidasanqian/AddDateInterceptor.java:228-252 | same items shape and row count; every row is the old row plus one trailing literal |
| InsertRewrite.PlaceValue | src/main/java/io/github/yidasanqian/AddDateInterceptor.java:87-97 | a present column overwrites its recorded slot in every row, and an absent one appends to every row |
| InsertRewrite.RewriteInsert | src/main/java/io/github/yidasanqian/AddDateInterceptor.java:68-101 | fails with UnsupportedOperation exactly for a sub-select; otherwise keeps the items shape and row count, and each row is rewritten create column first, then update column, both with indices scanned up front |
| InsertRewrite.RewriteRow | src/main/java/io/github/yidasanqian/AddDateInterceptor.java:87-97 | one row: the create column's step, then the update column's, both at indices scanned before any append; the row grows by one slot per absent audit column (RewriteRowEffect states each slot) |
| InsertRewrite.RewriteRowEffect | src/main/java/io/github/yidasanqian/AddDateInterceptor.java:87-97 | in one row: the recorded slots get the timestamp, one slot is appended per absent column, and every other slot is unchanged |
| InsertRewrite.RewriteInsertEffect | src/main/java/io/github/yidasanqian/AddDateInterceptor.java:87-97 | existing columns keep their places, absent audit columns are appended create first, and every row is rewritten slot by slot as RowRewritten says |
| InsertRewrite.RewriteInsertBothAbsent | src/main/java/io/github/yidasanqian/AddDateInterceptor.java:60-97 | both columns absent, equal names included: the column list ends `create, update`, and every row ends with two copies of the one timestamp |
| InsertRewrite.RewriteInsertUpdateSlotAfterAppend | src/main/java/io/github/yidasanqian/AddDateInterceptor.java:87-97 | `(a, gmt_modified) VALUES (1)` is accepted: the create append supplies slot 1, the update column's overwrite sets it, and the result is `(a, gmt_modified, gmt_create) VALUES (1, '<ts>')` |
| InsertRewrite.RewriteInsertKeepsShape | src/main/java/io/github/yidasanqian/AddDateInterceptor.java:228-252 | rows with one slot per column still have one slot per column afterwards |
| InsertRewrite.AuditIndicesAfter | src/main/java/io/github/yidasanqian/AddDateInterceptor.java:87-97 | after the rewrite, a present audit column keeps its index; an absent one sits at the appended position, create before update |
| InsertRewrite.RewriteRowTwice | src/main/java/io/github/yidasanqian/AddDateInterceptor.java:73-97 | rewriting a rewritten row again with a fresh literal equals one rewrite with that literal |
| InsertRewrite.RewriteInsertTwice | src/main/java/io/github/yidasanqian/AddDateInterceptor.java:73-97 | idempotence: a second rewrite adds no column and no slot, and equals one rewrite with the second timestamp |
| InsertRewrite.RewriteInsertShapeStable | src/main/java/io/github/yidasanqian/AddDateInterceptor.java:73-97 | a second rewrite leaves the column list and every row length unchanged, even when the two audit names are equal |
| InsertRewrite.RewriteInsertAuditColumnsOnce | src/main/java/io/github/yidasanqian/AddDateInterceptor.java:73-97 | with distinct audit names, each named at most once before, and rows with one slot per column: each audit column is named exactly once afterwards, and every row holds the timestamp at its index |
| InsertRewrite.IntoValueWithIndex | src/main/java/io/github/yidasanqian/AddDateInterceptor.java:204-226 | a sub-select fails with UnsupportedOperation and changes nothing; otherwise the items become SetSlot of the old items, and the columns are unchanged |
| InsertRewrite.IntoValue | src/main/java/io/github/yidasanqian/AddDateInterceptor.java:228-252 | the column is appended first, even for a sub-select, which then fails with UnsupportedOperation; otherwise the items become AppendSlot of the old items |
| UpdateRewrite.RewriteUpdate | src/main/java/io/github/yidasanqian/AddDateInterceptor.java:118-122 | the update column is present afterwards |
| UpdateRewrite.RewriteUpdateEffect | src/main/java/io/github/yidasanqian/AddDateInterceptor.java:194-202 | present: only the recorded expression is overwritten; absent: the column and the timestamp are appended; no other column's count changes, so the create column is never added |
| UpdateRewrite.RewriteUpdatePasses | src/main/java/io/github/yidasanqian/AddDateInterceptor.java:105-127 | zero passes change nothing and read no slot; any positive number of passes adds the column at most once |
| UpdateRewrite.RewriteUpdatePassesStep | src/main/java/io/github/yidasanqian/AddDateInterceptor.java:106-122 | each pass within the planned total finds its slot, and is one more rewrite of what the earlier passes left |
| UpdateRewrite.RewriteUpdateTwice | src/main/java/io/github/yidasanqian/AddDateInterceptor.java:108-122 | a second pass adds no column, and equals one pass with the second timestamp |
| UpdateRewrite.RewriteUpdatePassesOnce | src/main/java/io/github/yidasanqian/AddDateInterceptor.java:105-127 | any positive number of table passes equals a single pass |
| UpdateRewrite.RewriteUpdateOnce | src/main/java/io/github/yidasanqian/AddDateInterceptor.java:108-122 | with the update column named at most once before and parallel lists: it ends up named exactly once, with the timestamp at its slot, and the lists stay parallel |
| UpdateRewrite.UpdateValueWithIndex | src/main/java/io/github/yidasanqian/AddDateInterceptor.java:194-196 | only the expression at the index changes |
| UpdateRewrite.UpdateValue | src/main/java/io/github/yidasanqian/AddDateInterceptor.java:198-202 | the column and the timestamp are appended to the parallel lists |
| Interceptor.UpdateTable | src/main/java/io/github/yidasanqian/AddDateInterceptor.java:108-122 | one table's pass leaves the UPDATE as RewriteUpdate says |
| Interceptor.VisitTable | src/main/java/io/github/yidasanqian/AddDateInterceptor.java:106-107 | an ignored table is skipped; any other table gets the next pass |
| Interceptor.RewriteTables | src/main/java/io/github/yidasanqian/AddDateInterceptor.java:104-127 | one pass per non-ignored table, giving RewriteUpdatePasses; SQL is written back exactly when there was a pass |
| Interceptor.AddDateInterceptor.PrepareInsert | src/main/java/io/github/yidasanqian/AddDateInterceptor.java:68-101 | an ignored table: nothing changes and nothing is written; a sub-select: UnsupportedOperation, after the create column was appended when absent; otherwise RewriteInsert, written back |
| Interceptor.AddDateInterceptor.PrepareUpdate | src/main/java/io/github/yidasanqian/AddDateInterceptor.java:103-127 | the UPDATE ends as RewriteUpdatePasses over the non-ignored tables |
| Interceptor.AddDateInterceptor.Prepare | src/main/java/io/github/yidasanqian/AddDateInterceptor.java:57-128 | dispatch on the command kind; a statement of another kind fails with ClassCast and changes nothing; other kinds change nothing |
| IgnoreTables.MatchesIgnoreTables | src/main/java/io/github/yidasanqian/AddDateInterceptor.java:185-192 | false on an empty pattern list |
| IgnoreTables.MatchesIgnoreTablesSpec | src/main/java/io/github/yidasanqian/AddDateInterceptor.java:185-192 | true exactly when some pattern matches the table name |
| IgnoreTables.KeptTables | src/main/java/io/github/yidasanqian/AddDateInterceptor.java:105-107 | no more kept tables than targets |
| IgnoreTables.KeptTablesMembers | src/main/java/io/github/yidasanqian/AddDateInterceptor.java:105-107 | a table is kept exactly when it is a target and matches no pattern |
| ParameterMappings.Prune | src/main/java/io/github/yidasanqian/AddDateInterceptor.java:166-176 | pruning never lengthens the list |
| ParameterMappings.PruneRemovesInjected | src/main/java/io/github/yidasanqian/AddDateInterceptor.java:166-176 | no surviving mapping reads either camel-cased audit property |
| ParameterMappings.PruneCounts | src/main/java/io/github/yidasanqian/AddDateInterceptor.java:166-176 | every other mapping survives as often as it occurred, and injected ones vanish |
| ParameterMappings.PruneKeepsOrder | src/main/java/io/github/yidasanqian/AddDateInterceptor.java:166-176 | the survivors are a subsequence of the list, in their original order |
| ParameterMappings.PruneConcat | src/main/java/io/github/yidasanqian/AddDateInterceptor.java:166-176 | pruning a concatenation prunes each part |
| ParameterMappings.PruneUnchanged | src/main/java/io/github/yidasanqian/AddDateInterceptor.java:166-176 | pruning changes nothing exactly when no mapping is injected |
| ParameterMappings.PruneIdempotent | src/main/java/io/github/yidasanqian/AddDateInterceptor.java:166-176 | pruning twice is pruning once |
| ParameterMappings.IndexOfProperty | src/main/java/io/github/yidasanqian/AddDateInterceptor.java:166-172 | the first mapping reading the property, or -1 exactly when none does |
| ParameterMappings.PruneMappingsOutcome | src/main/java/io/github/yidasanqian/AddDateInterceptor.java:161-177 | success exactly when the two properties differ or neither is bound; success removes every injected mapping; failure is IllegalState and removes exactly one mapping |
| ParameterMappings.PruneMappingsRepeat | src/main/java/io/github/yidasanqian/AddDateInterceptor.java:145-148 | a call on the list a successful call left is a successful no-op |
| ParameterMappings.NothingInjected | src/main/java/io/github/yidasanqian/AddDateInterceptor.java:161-177 | a list with no injected mapping passes unchanged |
| ParameterMappings.PruneMappingsAgain | src/main/java/io/github/yidasanqian/AddDateInterceptor.java:145-148 | repeated per-table calls answer what the first call answered |
| ParameterMappings.WalkStep | src/main/java/io/github/yidasanqian/AddDateInterceptor.java:166-176 | one iterator step: the element under the iterator is the next original mapping; removing or stepping past it keeps the walk invariant |
| ParameterMappings.WalkFail | src/main/java/io/github/yidasanqian/AddDateInterceptor.java:168-175 | with equal properties, the first hit is removed once and the second removal throws IllegalState |
| ParameterMappings.WalkDone | src/main/java/io/github/yidasanqian/AddDateInterceptor.java:166-177 | a completed walk leaves the pruned list, with success |
| ParameterMappings.HandleParameterMapping | src/main/java/io/github/yidasanqian/AddDateInterceptor.java:161-177 | the in-place iterator loop leaves the list and the outcome that PruneMappings specifies |
| Interceptor.PruneForUpdate | src/main/java/io/github/yidasanqian/AddDateInterceptor.java:142-149 | with some non-ignored table, the result equals one pruning; with none, nothing changes |
| Interceptor.AddDateInterceptor.SetParameters | src/main/java/io/github/yidasanqian/AddDateInterceptor.java:129-151 | a non-ignored INSERT, or an UPDATE with a non-ignored table, is pruned once as PruneMappings says; an ignored or other statement is left alone; a kind mismatch is ClassCast |
| Configuration.GetProperty | src/main/java/io/github/yidasanqian/AddDateInterceptor.java:261-263 | the stored value when the key is set, and the default otherwise |
| Configuration.Trim | src/main/java/io/github/yidasanqian/AddDateInterceptor.java:264 | never longer than the input; a non-empty result has no character up to U+0020 at either end |
| Configuration.TrimStartSpec | src/main/java/io/github/yidasanqian/AddDateInterceptor.java:264 | trimming the front drops a prefix of characters up to U+0020, and stops at a kept character |
| Configuration.TrimEndSpec | src/main/java/io/github/yidasanqian/AddDateInterceptor.java:264 | trimming the end drops a suffix of characters up to U+0020, and stops at a kept character |
| Configuration.TrimEmptyIffBlank | src/main/java/io/github/yidasanqian/AddDateInterceptor.java:264 | the trimmed value is empty exactly when every character is at most U+0020 |
| Configuration.SplitOnCommaPieces | src/main/java/io/github/yidasanqian/AddDateInterceptor.java:265 | no piece holds a comma |
| Configuration.SplitJoin | src/main/java/io/github/yidasanqian/AddDateInterceptor.java:265 | joining the pieces with commas gives the string back |
| Configuration.JoinSplit | src/main/java/io/github/yidasanqian/AddDateInterceptor.java:265 | splitting the join of comma-free pieces gives the pieces back |
| Configuration.JavaSplit | src/main/java/io/github/yidasanqian/AddDateInterceptor.java:265 | a comma-free string gives itself; no piece holds a comma; with a comma, a non-empty result ends in a non-empty piece (DropTrailingEmpty and IgnoreTableListShape state the rest) |
| Configuration.DropTrailingEmpty | src/main/java/io/github/yidasanqian/AddDateInterceptor.java:265 | the result is a prefix, everything dropped is empty, and the last kept piece is non-empty |
| Configuration.IgnoreTableList | src/main/java/io/github/yidasanqian/AddDateInterceptor.java:264-269 | no pattern holds a comma, and some pattern exists only when the value has a character above U+0020 |
| Configuration.IgnoreTableListShape | src/main/java/io/github/yidasanqian/AddDateInterceptor.java:263-269 | a blank value gives no pattern; a comma-free non-blank value gives itself; otherwise a prefix of the comma-split pieces, none holding a comma |
| Configuration.ConfigOf | src/main/java/io/github/yidasanqian/AddDateInterceptor.java:261-269 | each column name is the property when set and its default otherwise; an unset ignoreTables gives no pattern |
| Configuration.ConfigDefaults | src/main/java/io/github/yidasanqian/AddDateInterceptor.java:260-270 | unset keys give `gmt_create`, `gmt_modified` and no ignore pattern |
| Interceptor.AddDateInterceptor.SetProperties | src/main/java/io/github/yidasanqian/AddDateInterceptor.java:260-270 | the three fields are set to ConfigOf(properties) |

## Left out

- SQL parsing and serialisation: the statement arrives as `Insert`/`Update` objects, and the rewritten SQL text is not produced. The `written` result says whether it would be stored back into the bound SQL.
- MyBatis plumbing is not modelled; this covers:
  - reflective `MetaObject` access;
  - `PluginUtil.processTarget`, which is not part of this model;
  - `Plugin.wrap` and the `@Intercepts` signatures;
  - `invocation.proceed()`.
- The `intercept` dispatch on the method name becomes the two entry points `Prepare` and `SetParameters`.
- The clock and `SimpleDateFormat` are not modelled: the formatted time is the `currentDate` parameter, taken once per call as in the source.
- The regular-expression semantics of `String.matches` become the `matches` parameter.
- `StringUtil.camelCase` becomes the `camelCase` parameter; `StringUtil` is not part of this model.
- Logging is left out.
- Static configuration fields are shared across instances and threads in the source. Here they are fields of one `AddDateInterceptor` object.
- The `java.util.Properties` defaults chain is not modelled: properties are a map.
- `String.trim` and `String.split(",")` are modelled on characters: trim drops characters up to U+0020, and split drops trailing empty pieces. No other regex in `split` is involved.
- Configuration used before `setProperties`: in the source the static ignore-pattern list starts as null, so an INSERT or UPDATE intercepted before `setProperties` throws NullPointerException in `matchesIgnoreTables`. `AddDateInterceptor` here has no such null state: its fields always hold some configuration, and that path is not modelled.
- An INSERT without a column list: the parser leaves the list null and the source's column scan throws NullPointerException. The model's `Insert.columns` has no null state; an empty list stands for an empty column list, which gets both audit columns appended. That path is not modelled.
- Other exceptions the source lets escape are not represented: the parser's exception and PatternSyntaxException from `String.matches`.
- Interceptor.AddDateInterceptor.Prepare: for an INSERT on a table no pattern matches, requires every row to have the recorded slot of each present audit column when it is set. The update column's slot is counted after the create column's append, so a row one slot short of it still qualifies when the create column was absent. Where even that slot is missing, the source would throw IndexOutOfBoundsException from `set`, and that path is not modelled. An ignored INSERT has no such requirement: it passes through unchanged, as in the source.
- InsertRewrite.IntoValueWithIndex: requires every row to have the slot, for the same reason.
- UpdateRewrite.UpdateValueWithIndex: requires the expression slot to exist, for the same reason.
- Interceptor.RewriteTables: when at least one table is not ignored, requires each pass to find its slot, via UpdateSlotsExist. A named column needs an expression at its last index, where the source would otherwise throw IndexOutOfBoundsException. With two or more passes and the column absent, it also needs `|columns| <= |expressions|`, because later passes overwrite at the appended index. With every table ignored there is no requirement, and the UPDATE is left unchanged.
- UpdateRewrite.RewriteUpdateTwice: when the column is absent, it is stated only for parallel column and expression lists. For non-parallel lists, the second pass overwrites the index recorded in the column list, not the appended expression.
- UpdateRewrite.RewriteUpdatePassesOnce: needs the same parallel-lists condition.
- InsertRewrite.RewriteInsertAuditColumnsOnce: "exactly once" holds only when the names are distinct, neither is named more than once before, and the rows are well shaped. The source removes no duplicate: for `(gmt_create, a, gmt_create)` only the last occurrence's slot is overwritten and the column stays named twice. Equal configured names append the column twice.
- UpdateRewrite.RewriteUpdateOnce: "exactly once" holds only when the update column is named at most once before and the lists are parallel. The source removes no duplicate, and overwrites only the last occurrence's expression.
- InsertRewrite.RewriteInsertTwice: stated for distinct audit names and rows with one slot per column. RewriteInsertShapeStable covers the shape when the names are equal.

=== FILE: columns.dfy ===
/** Looking up audit columns in a column list. Names are compared exactly
    (case-sensitive), as String.equals does. */
module Columns {

  /** The index the interceptor's scan records for `name`: the scan overwrites
      its index on every match, so the LAST occurrence wins; -1 when absent. */
  function LastIndexOf(columns: seq<string>, name: string): (r: int)
    ensures -1 <= r < |columns|
    ensures r == -1 <==> name !in columns
    ensures 0 <= r ==> columns[r] == name
    ensures forall j :: r < j < |columns| ==> columns[j] != name
  {
    if columns == [] then -1
    else if columns[|columns| - 1] == name then |columns| - 1
    else LastIndexOf(columns[..|columns| - 1], name)
  }

  /** What an absent audit column contributes to the end of the column list. */
  function Appended(columns: seq<string>, name: string): (r: seq<string>)
    ensures name in columns ==> r == []
    ensures name !in columns ==> r == [name]
  {
    if name in columns then [] else [name]
  }

  /** Appending to a list does not move the last occurrence of a name it already held. */
  lemma {:induction false} LastIndexOfAppend(columns: seq<string>, extra: seq<string>, name: string)
    requires name in columns && name !in extra
    ensures LastIndexOf(columns + extra, name) == LastIndexOf(columns, name)
  {
    var k := LastIndexOf(columns, name);
    assert (columns + extra)[k] == name;
  }
}

=== FILE: configuration.dfy ===
/** The plugin configuration read by setProperties: the two audit column names
    and the list of ignore patterns, with Java's String.trim and String.split
    written out for the characters they act on. */
module Configuration {

  const DefaultCreateColumn: string := "gmt_create"
  const DefaultUpdateColumn: string := "gmt_modified"

  /** Properties.getProperty(key, default). */
  function GetProperty(properties: map<string, string>, key: string, default: string): (r: string)
    ensures key in properties ==> r == properties[key]
    ensures key !in properties ==> r == default
  {
    if key in properties then properties[key] else default
  }

  /** String.trim strips every character up to U+0020 from both ends. */
  predicate IsTrimmed(c: char)
  {
    c <= ' '
  }

  function TrimStart(s: string): (r: string)
    ensures |r| <= |s|
  {
    if s != [] && IsTrimmed(s[0]) then TrimStart(s[1..]) else s
  }

  function TrimEnd(s: string): (r: string)
    ensures |r| <= |s|
  {
    if s != [] && IsTrimmed(s[|s| - 1]) then TrimEnd(s[..|s| - 1]) else s
  }

  /** String.trim: no character up to U+0020 is left at either end. */
  function Trim(s: string): (r: string)
    ensures |r| <= |s|
    ensures r != [] ==> !IsTrimmed(r[0]) && !IsTrimmed(r[|r| - 1])
  {
    TrimStartSpec(s);
    TrimEndSpec(TrimStart(s));
    TrimEnd(TrimStart(s))
  }

  /** TrimStart drops a trimmed prefix and stops at the first kept character. */
  lemma {:induction false} TrimStartSpec(s: string)
    ensures |TrimStart(s)| <= |s| && TrimStart(s) == s[|s| - |TrimStart(s)|..]
    ensures forall i :: 0 <= i < |s| - |TrimStart(s)| ==> IsTrimmed(s[i])
    ensures TrimStart(s) != [] ==> !IsTrimmed(TrimStart(s)[0])
  {
    if s != [] && IsTrimmed(s[0]) {
      TrimStartSpec(s[1..]);
      assert forall i :: 1 <= i < |s| ==> s[i] == s[1..][i - 1];
    }
  }

  /** TrimEnd drops a trimmed suffix and stops at the last kept character. */
  lemma {:induction false} TrimEndSpec(s: string)
    ensures TrimEnd(s) == s[..|TrimEnd(s)|]
    ensures forall i :: |TrimEnd(s)| <= i < |s| ==> IsTrimmed(s[i])
    ensures TrimEnd(s) != [] ==> !IsTrimmed(TrimEnd(s)[|TrimEnd(s)| - 1])
  {
    if s != [] && IsTrimmed(s[|s| - 1]) {
      TrimEndSpec(s[..|s| - 1]);
    }
  }

  /** A string trims to nothing exactly when every character of it is trimmed. */
  lemma TrimEmptyIffBlank(s: string)
    ensures |Trim(s)| == 0 <==> forall i :: 0 <= i < |s| ==> IsTrimmed(s[i])
  {
    var front := TrimStart(s);
    TrimStartSpec(s);
    TrimEndSpec(front);
    if |Trim(s)| == 0 {
      assert TrimEnd(front) == [];
    } else {
      var t := Trim(s);
      assert t[0] == front[0] && front[0] == s[|s| - |front|];
      assert !IsTrimmed(s[|s| - |front|]);
    }
  }

  /** The pieces between commas, empty pieces included. */
  function SplitOnComma(s: string): (pieces: seq<string>)
    ensures |pieces| >= 1
  {
    if s == [] then [[]]
    else
      var rest := SplitOnComma(s[1..]);
      if s[0] == ',' then [[]] + rest else [[s[0]] + rest[0]] + rest[1..]
  }

  /** No piece holds a comma. */
  lemma {:induction false} SplitOnCommaPieces(s: string)
    ensures forall i :: 0 <= i < |SplitOnComma(s)| ==> ',' !in SplitOnComma(s)[i]
  {
    if s != [] {
      SplitOnCommaPieces(s[1..]);
      var rest := SplitOnComma(s[1..]);
      var pieces := SplitOnComma(s);
      forall i | 0 <= i < |pieces|
        ensures ',' !in pieces[i]
      {
        if s[0] == ',' {
          if i > 0 {
            assert pieces[i] == rest[i - 1];
          }
        } else if i > 0 {
          assert pieces[i] == rest[i];
        } else {
          assert pieces[0] == [s[0]] + rest[0];
          assert ',' !in rest[0];
        }
      }
    }
  }

  /** The pieces glued back together with commas. */
  function JoinWithComma(pieces: seq<string>): (s: string)
    requires |pieces| >= 1
  {
    if |pieces| == 1 then pieces[0] else pieces[0] + [','] + JoinWithComma(pieces[1..])
  }

  /** Splitting loses nothing: joining the pieces gives the string back. */
  lemma {:induction false} SplitJoin(s: string)
    ensures JoinWithComma(SplitOnComma(s)) == s
  {
    if s != [] {
      SplitJoin(s[1..]);
      var rest := SplitOnComma(s[1..]);
      assert s == [s[0]] + s[1..];
      if s[0] == ',' {
        var pieces := [[]] + rest;
        assert pieces[1..] == rest;
        assert JoinWithComma(pieces) == [] + [','] + JoinWithComma(rest);
      } else {
        var pieces := [[s[0]] + rest[0]] + rest[1..];
        if |rest| > 1 {
          assert pieces[1..] == rest[1..];
          assert JoinWithComma(rest) == rest[0] + [','] + JoinWithComma(rest[1..]);
          assert JoinWithComma(pieces) == ([s[0]] + rest[0]) + [','] + JoinWithComma(rest[1..]);
        } else {
          assert JoinWithComma(pieces) == [s[0]] + rest[0];
        }
      }
    }
  }

  /** Joining comma-free pieces and splitting again gives the pieces back. */
  lemma {:induction false} JoinSplit(pieces: seq<string>)
    requires |pieces| >= 1
    requires forall i :: 0 <= i < |pieces| ==> ',' !in pieces[i]
    ensures SplitOnComma(JoinWithComma(pieces)) == pieces
    decreases |JoinWithComma(pieces)|
  {
    var first := pieces[0];
    if |pieces| == 1 {
      SplitPlain(first, []);
      assert first + [] == first && SplitOnComma([]) == [[]];
    } else {
      JoinSplit(pieces[1..]);
      var tail := [','] + JoinWithComma(pieces[1..]);
      assert JoinWithComma(pieces) == first + tail;
      SplitPlain(first, tail);
      assert SplitOnComma(tail) == [[]] + pieces[1..] by {
        assert tail[0] == ',' && tail[1..] == JoinWithComma(pieces[1..]);
      }
      assert ([[]] + pieces[1..])[1..] == pieces[1..];
      assert first + [] == first;
      assert pieces == [first] + pieces[1..];
    }
  }

  /** A comma-free prefix joins the first piece of what follows it. */
  lemma {:induction false} SplitPlain(word: string, tail: string)
    requires ',' !in word
    ensures var ps := SplitOnComma(tail);
      SplitOnComma(word + tail) == [word + ps[0]] + ps[1..]
  {
    if word != [] {
      SplitPlain(word[1..], tail);
      assert (word + tail)[1..] == word[1..] + tail;
      assert (word + tail)[0] == word[0];
      assert [word[0]] + (word[1..] + SplitOnComma(tail)[0]) == word + SplitOnComma(tail)[0];
    } else {
      var ps := SplitOnComma(tail);
      assert word + tail == tail && word + ps[0] == ps[0];
      assert ps == [ps[0]] + ps[1..];
    }
  }

  /** Trailing empty pieces removed, as String.split(regex) does. */
  function DropTrailingEmpty(pieces: seq<string>): (r: seq<string>)
    ensures |r| <= |pieces| && r == pieces[..|r|]
    ensures forall i :: |r| <= i < |pieces| ==> pieces[i] == []
    ensures r != [] ==> r[|r| - 1] != []
  {
    if pieces != [] && pieces[|pieces| - 1] == [] then DropTrailingEmpty(pieces[..|pieces| - 1]) else pieces
  }

  /** String.split(","): no comma gives the string itself; otherwise the pieces
      without the trailing empty ones. */
  function JavaSplit(s: string): (r: seq<string>)
    ensures ',' !in s ==> r == [s]
    ensures forall i :: 0 <= i < |r| ==> ',' !in r[i]
    ensures ',' in s && r != [] ==> r[|r| - 1] != []
  {
    SplitOnCommaPieces(s);
    if ',' !in s then [s] else DropTrailingEmpty(SplitOnComma(s))
  }

  /** The ignore-pattern list built from the ignoreTables property. */
  function IgnoreTableList(value: string): (r: seq<string>)
    ensures forall i :: 0 <= i < |r| ==> ',' !in r[i]
    ensures r != [] ==> exists i :: 0 <= i < |value| && !IsTrimmed(value[i])
  {
    TrimEmptyIffBlank(value);
    if |Trim(value)| > 0 then JavaSplit(value) else []
  }

  /** A blank or whitespace-only value gives no pattern; a value with some
      non-blank character gives its comma-separated pieces, a comma-free one
      itself, and no piece holds a comma. */
  lemma IgnoreTableListShape(value: string)
    ensures (forall i :: 0 <= i < |value| ==> IsTrimmed(value[i])) ==> IgnoreTableList(value) == []
    ensures (exists i :: 0 <= i < |value| && !IsTrimmed(value[i])) && ',' !in value ==> IgnoreTableList(value) == [value]
    ensures forall i :: 0 <= i < |IgnoreTableList(value)| ==> ',' !in IgnoreTableList(value)[i]
    ensures (exists i :: 0 <= i < |value| && !IsTrimmed(value[i])) ==>
      var pieces := SplitOnComma(value);
      IgnoreTableList(value) == pieces[..|IgnoreTableList(value)|]
  {
    TrimEmptyIffBlank(value);
    SplitOnCommaPieces(value);
    if ',' !in value {
      SplitJoin(value);
      assert |SplitOnComma(value)| == 1;
    }
  }

  /** The configuration setProperties installs. */
  datatype Config = Config(createDateColumnName: string, updateDateColumnName: string, ignoreTableList: seq<string>)

  function ConfigOf(properties: map<string, string>): (c: Config)
    ensures "createDateColumnName" in properties ==> c.createDateColumnName == properties["createDateColumnName"]
    ensures "createDateColumnName" !in properties ==> c.createDateColumnName == DefaultCreateColumn
    ensures "updateDateColumnName" in properties ==> c.updateDateColumnName == properties["updateDateColumnName"]
    ensures "updateDateColumnName" !in properties ==> c.updateDateColumnName == DefaultUpdateColumn
    ensures "ignoreTables" !in properties ==> c.ignoreTableList == []
  {
    Config(GetProperty(properties, "createDateColumnName", DefaultCreateColumn),
           GetProperty(properties, "updateDateColumnName", DefaultUpdateColumn),
           IgnoreTableList(GetProperty(properties, "ignoreTables", "")))
  }

  /** Unset keys give gmt_create, gmt_modified and no ignore pattern; other keys
      are ignored. */
  lemma ConfigDefaults(properties: map<string, string>)
    requires "createDateColumnName" !in properties && "updateDateColumnName" !in properties
    requires "ignoreTables" !in properties
    ensures ConfigOf(properties) == Config("gmt_create", "gmt_modified", [])
  {
    TrimEmptyIffBlank("");
  }
}

=== FILE: ignore_tables.dfy ===
/** Exempt tables. A table is ignored when its name matches one of the configured
    patterns; `matches(name, pattern)` stands for Java's String.matches, a
    full-match regular-expression test whose semantics are not modelled. */
module IgnoreTables {

  /** matchesIgnoreTables: the patterns are tried in order and the first hit
      answers true. */
  function MatchesIgnoreTables(patterns: seq<string>, tableName: string, matches: (string, string) -> bool): (b: bool)
    ensures patterns == [] ==> !b
  {
    if patterns == [] then false
    else if matches(tableName, patterns[0]) then true
    else MatchesIgnoreTables(patterns[1..], tableName, matches)
  }

  /** A table is ignored exactly when some pattern matches its name. */
  lemma {:induction false} MatchesIgnoreTablesSpec(patterns: seq<string>, tableName: string, matches: (string, string) -> bool)
    ensures MatchesIgnoreTables(patterns, tableName, matches)
        <==> exists i :: 0 <= i < |patterns| && matches(tableName, patterns[i])
  {
    if patterns != [] && !matches(tableName, patterns[0]) {
      MatchesIgnoreTablesSpec(patterns[1..], tableName, matches);
      assert forall i :: 1 <= i < |patterns| ==> patterns[i] == patterns[1..][i - 1];
      if MatchesIgnoreTables(patterns, tableName, matches) {
        var i :| 0 <= i < |patterns[1..]| && matches(tableName, patterns[1..][i]);
        assert matches(tableName, patterns[i + 1]);
      }
    }
  }

  /** The target tables of an UPDATE that are not ignored, in order: one rewrite
      pass (and one parameter pruning) happens for each. */
  function KeptTables(tables: seq<string>, patterns: seq<string>, matches: (string, string) -> bool): (r: seq<string>)
    ensures |r| <= |tables|
  {
    if tables == [] then []
    else
      var init := tables[..|tables| - 1];
      var last := tables[|tables| - 1];
      assert tables == init + [last];
      KeptTables(init, patterns, matches) + (if MatchesIgnoreTables(patterns, last, matches) then [] else [last])
  }

  /** A table is kept exactly when it is a target and matches no pattern. */
  lemma {:induction false} KeptTablesMembers(tables: seq<string>, patterns: seq<string>, matches: (string, string) -> bool)
    ensures forall t :: t in KeptTables(tables, patterns, matches) <==> t in tables && !MatchesIgnoreTables(patterns, t, matches)
  {
    if tables != [] {
      var init := tables[..|tables| - 1];
      KeptTablesMembers(init, patterns, matches);
      assert tables == init + [tables[|tables| - 1]];
    }
  }

  /** A prefix of the tables keeps no more tables than the whole list. */
  lemma {:induction false} KeptTablesPrefix(tables: seq<string>, n: nat, patterns: seq<string>, matches: (string, string) -> bool)
    requires n <= |tables|
    ensures |KeptTables(tables[..n], patterns, matches)| <= |KeptTables(tables, patterns, matches)|
    decreases |tables| - n
  {
    if n < |tables| {
      KeptTablesPrefix(tables, n + 1, patterns, matches);
      assert tables[..n + 1][..n] == tables[..n];
    } else {
      assert tables[..n] == tables;
    }
  }

  /** Extending the prefix by one table keeps one more table exactly when that
      table is not ignored. */
  lemma KeptTablesStep(tables: seq<string>, n: nat, patterns: seq<string>, matches: (string, string) -> bool)
    requires n < |tables|
    ensures |KeptTables(tables[..n + 1], patterns, matches)|
         == |KeptTables(tables[..n], patterns, matches)| + if MatchesIgnoreTables(patterns, tables[n], matches) then 0 else 1
  {
    assert tables[..n + 1][..n] == tables[..n];
  }
}

=== FILE: insert_rewrite.dfy ===
/** The INSERT branch of the prepare phase: each audit column that the column
    list already holds has its value slot overwritten in every row; each one it
    lacks is appended to the column list, with a timestamp appended to every row.
    The create column is handled before the update column. */
module InsertRewrite {
  import opened Statements
  import opened Columns

  /** The parts of an INSERT that the rewrite changes. */
  datatype InsertState = InsertState(columns: seq<string>, items: ItemsList)

  /** Both value slots the rewrite overwrites exist in every row when they are
      overwritten: the update column's slot is set after the create column's
      append, so a row one slot short of it still has it then. */
  predicate InsertSlotsExist(s: InsertState, create: string, update: string)
  {
    && SlotsExist(s.items, LastIndexOf(s.columns, create))
    && SlotsExist(s.items, LastIndexOf(s.columns, update) - |Appended(s.columns, create)|)
  }

  /** What intoValueWithIndex does to the items: slot k of every row becomes e. */
  function SetSlot(items: ItemsList, k: nat, e: Expr): (r: ItemsList)
    requires SlotsExist(items, k)
    ensures r.SubSelect? == items.SubSelect? && r.Single? == items.Single?
    ensures |RowsOf(r)| == |RowsOf(items)|
    ensures forall j :: 0 <= j < |RowsOf(r)| ==> RowsOf(r)[j] == RowsOf(items)[j][k := e]
  {
    match items
    case Single(row) =>
      assert RowsOf(items)[0] == row;
      Single(row[k := e])
    case Multi(rows) =>
      assert forall j :: 0 <= j < |rows| ==> rows[j] == RowsOf(items)[j];
      Multi(seq(|rows|, j requires 0 <= j < |rows| => rows[j][k := e]))
    case SubSelect => SubSelect
  }

  /** What intoValue does to the items: e is appended to every row. */
  function AppendSlot(items: ItemsList, e: Expr): (r: ItemsList)
    ensures r.SubSelect? == items.SubSelect? && r.Single? == items.Single?
    ensures |RowsOf(r)| == |RowsOf(items)|
    ensures forall j :: 0 <= j < |RowsOf(r)| ==> RowsOf(r)[j] == RowsOf(items)[j] + [e]
  {
    match items
    case Single(row) => Single(row + [e])
    case Multi(rows) => Multi(seq(|rows|, j requires 0 <= j < |rows| => rows[j] + [e]))
    case SubSelect => SubSelect
  }

  /** Overwrite slot k of a row, or append when the column is not present. */
  function Place(row: seq<Expr>, present: bool, k: int, e: Expr): (r: seq<Expr>)
    requires present ==> 0 <= k < |row|
    ensures |r| == if present then |row| else |row| + 1
  {
    if present then row[k := e] else row + [e]
  }

  /** One audit column's step on one row: overwrite its recorded slot, or append. */
  function PlaceInRow(row: seq<Expr>, columns: seq<string>, name: string, e: Expr): (r: seq<Expr>)
    requires LastIndexOf(columns, name) < |row|
    ensures |r| == |row| + |Appended(columns, name)|
  {
    Place(row, name in columns, LastIndexOf(columns, name), e)
  }

  /** One audit column's step on the items. */
  function PlaceValue(items: ItemsList, columns: seq<string>, name: string, e: Expr): (r: ItemsList)
    requires SlotsExist(items, LastIndexOf(columns, name))
    ensures r.SubSelect? == items.SubSelect? && r.Single? == items.Single?
    ensures |RowsOf(r)| == |RowsOf(items)|
    ensures forall j :: 0 <= j < |RowsOf(r)| ==> RowsOf(r)[j] == PlaceInRow(RowsOf(items)[j], columns, name, e)
  {
    if name in columns then SetSlot(items, LastIndexOf(columns, name), e) else AppendSlot(items, e)
  }

  /** Both steps on one row; both use the indices scanned before any append. */
  function RewriteRow(row: seq<Expr>, columns: seq<string>, create: string, update: string, e: Expr): (r: seq<Expr>)
    requires LastIndexOf(columns, create) < |row| && LastIndexOf(columns, update) < |row| + |Appended(columns, create)|
    ensures |r| == |row| + |Appended(columns, create)| + |Appended(columns, update)|
  {
    PlaceInRow(PlaceInRow(row, columns, create, e), columns, update, e)
  }

  /** The whole INSERT rewrite with timestamp text `date`; a sub-select is refused. */
  function RewriteInsert(s: InsertState, create: string, update: string, date: string): (r: Result<InsertState>)
    requires InsertSlotsExist(s, create, update)
    ensures r.Err? <==> s.items.SubSelect?
    ensures r.Err? ==> r.error == UnsupportedOperation
    ensures r.Ok? ==> r.value.items.Single? == s.items.Single? && |RowsOf(r.value.items)| == |RowsOf(s.items)|
    ensures r.Ok? ==> forall j :: 0 <= j < |RowsOf(s.items)| ==>
      RowsOf(r.value.items)[j] == RewriteRow(RowsOf(s.items)[j], s.columns, create, update, Timestamp(date))
  {
    if s.items.SubSelect? then Err(UnsupportedOperation)
    else
      var e := Timestamp(date);
      var items := PlaceValue(s.items, s.columns, create, e);
      assert forall j :: 0 <= j < |RowsOf(items)| ==>
        |RowsOf(items)[j]| == |RowsOf(s.items)[j]| + |Appended(s.columns, create)|;
      Ok(InsertState(s.columns + Appended(s.columns, create) + Appended(s.columns, update),
                     PlaceValue(items, s.columns, update, e)))
  }

  /** Slot by slot, what the rewrite leaves in a row with `date`'s literal `e`. */
  ghost predicate RowRewritten(row: seq<Expr>, row': seq<Expr>, columns: seq<string>, create: string, update: string, e: Expr)
  {
    && |row'| == |row| + |Appended(columns, create)| + |Appended(columns, update)|
    && (forall i :: 0 <= i < |row| ==>
          row'[i] == if i == LastIndexOf(columns, create) || i == LastIndexOf(columns, update) then e else row[i])
    && (forall i :: |row| <= i < |row'| ==> row'[i] == e)
  }

  /** The rewrite of one row: recorded slots overwritten, one slot appended per
      absent audit column, every other slot unchanged. */
  lemma RewriteRowEffect(row: seq<Expr>, columns: seq<string>, create: string, update: string, e: Expr)
    requires LastIndexOf(columns, create) < |row| && LastIndexOf(columns, update) < |row| + |Appended(columns, create)|
    ensures RowRewritten(row, RewriteRow(row, columns, create, update, e), columns, create, update, e)
  {
    var mid := PlaceInRow(row, columns, create, e);
    var row' := PlaceInRow(mid, columns, update, e);
    assert |mid| == |row| + |Appended(columns, create)|;
    forall i | 0 <= i < |row|
      ensures row'[i] == if i == LastIndexOf(columns, create) || i == LastIndexOf(columns, update) then e else row[i]
    {
      assert mid[i] == if i == LastIndexOf(columns, create) then e else row[i];
    }
    forall i | |row| <= i < |row'|
      ensures row'[i] == e
    {
      if i < |mid| {
        assert mid[i] == e;
      }
    }
  }

  /** Audit columns present or absent: existing columns keep their places, absent
      ones are appended (create first), every row gains one timestamp per appended
      column, and only the recorded slots of present columns are overwritten. */
  lemma RewriteInsertEffect(s: InsertState, create: string, update: string, date: string)
    requires InsertSlotsExist(s, create, update) && !s.items.SubSelect?
    ensures var r := RewriteInsert(s, create, update, date).value;
      && r.columns[..|s.columns|] == s.columns
      && r.columns[|s.columns|..] == Appended(s.columns, create) + Appended(s.columns, update)
      && |RowsOf(r.items)| == |RowsOf(s.items)|
      && forall j :: 0 <= j < |RowsOf(s.items)| ==>
           RowRewritten(RowsOf(s.items)[j], RowsOf(r.items)[j], s.columns, create, update, Timestamp(date))
  {
    var r := RewriteInsert(s, create, update, date).value;
    assert r.columns == s.columns + (Appended(s.columns, create) + Appended(s.columns, update));
    forall j | 0 <= j < |RowsOf(s.items)|
      ensures RowRewritten(RowsOf(s.items)[j], RowsOf(r.items)[j], s.columns, create, update, Timestamp(date))
    {
      RewriteRowEffect(RowsOf(s.items)[j], s.columns, create, update, Timestamp(date));
    }
  }

  /** Both audit columns absent: the column list ends `create, update` and every
      row ends with two copies of the one timestamp. */
  lemma RewriteInsertBothAbsent(s: InsertState, create: string, update: string, date: string)
    requires create !in s.columns && update !in s.columns && !s.items.SubSelect?
    ensures InsertSlotsExist(s, create, update)
    ensures var r := RewriteInsert(s, create, update, date).value;
      && r.columns == s.columns + [create, update]
      && forall j :: 0 <= j < |RowsOf(s.items)| ==>
           RowsOf(r.items)[j] == RowsOf(s.items)[j] + [Timestamp(date), Timestamp(date)]
  {
    var r := RewriteInsert(s, create, update, date).value;
    forall j | 0 <= j < |RowsOf(s.items)|
      ensures RowsOf(r.items)[j] == RowsOf(s.items)[j] + [Timestamp(date), Timestamp(date)]
    {
      RewriteRowEffect(RowsOf(s.items)[j], s.columns, create, update, Timestamp(date));
    }
  }

  /** Create column absent, update column last and one slot short: the create
      append supplies the slot the update column's overwrite then uses. */
  lemma RewriteInsertUpdateSlotAfterAppend(date: string)
    ensures var s := InsertState(["a", "gmt_modified"], Single([Other("1")]));
      && InsertSlotsExist(s, "gmt_create", "gmt_modified")
      && RewriteInsert(s, "gmt_create", "gmt_modified", date)
         == Ok(InsertState(["a", "gmt_modified", "gmt_create"], Single([Other("1"), Timestamp(date)])))
  {
    var s := InsertState(["a", "gmt_modified"], Single([Other("1")]));
    assert LastIndexOf(s.columns, "gmt_modified") == 1;
    assert "gmt_create" !in s.columns by {
      assert s.columns[0] != "gmt_create" && s.columns[1] != "gmt_create";
    }
    var e := Timestamp(date);
    var items := PlaceValue(s.items, s.columns, "gmt_create", e);
    assert items == Single([Other("1"), e]);
    assert PlaceValue(items, s.columns, "gmt_modified", e) == Single([Other("1"), e]);
    assert s.columns + Appended(s.columns, "gmt_create") + Appended(s.columns, "gmt_modified")
        == ["a", "gmt_modified", "gmt_create"];
  }

  /** Rows that had one slot per column still do after the rewrite. */
  lemma RewriteInsertKeepsShape(s: InsertState, create: string, update: string, date: string)
    requires WellShaped(s.columns, s.items) && !s.items.SubSelect?
    ensures InsertSlotsExist(s, create, update)
    ensures var r := RewriteInsert(s, create, update, date).value; WellShaped(r.columns, r.items)
  {
    var r := RewriteInsert(s, create, update, date).value;
    forall j | 0 <= j < |RowsOf(r.items)|
      ensures |RowsOf(r.items)[j]| == |r.columns|
    {
      RewriteRowEffect(RowsOf(s.items)[j], s.columns, create, update, Timestamp(date));
    }
  }

  /** Where each audit column stands after the rewrite (distinct names). */
  lemma AuditIndicesAfter(columns: seq<string>, create: string, update: string)
    requires create != update
    ensures var columns' := columns + Appended(columns, create) + Appended(columns, update);
      && LastIndexOf(columns', create) == (if create in columns then LastIndexOf(columns, create) else |columns|)
      && LastIndexOf(columns', update) ==
           (if update in columns then LastIndexOf(columns, update) else |columns| + |Appended(columns, create)|)
  {
    var extra := Appended(columns, create) + Appended(columns, update);
    var columns' := columns + extra;
    assert columns' == columns + Appended(columns, create) + Appended(columns, update);
    if create in columns {
      LastIndexOfAppend(columns, extra, create);
    } else {
      assert columns'[|columns|] == create;
    }
    if update in columns {
      LastIndexOfAppend(columns, extra, update);
    } else {
      assert columns'[|columns| + |Appended(columns, create)|] == update;
    }
  }

  /** Placing two literals and then overwriting both places with a fresh one
      is placing the fresh one: ic and iu are where the two literals landed. */
  lemma PlaceTwice(row: seq<Expr>, pc: bool, kc: int, pu: bool, ku: int, ic: int, iu: int, e1: Expr, e2: Expr)
    requires pc ==> 0 <= kc < |row|
    requires pu ==> 0 <= ku < |row|
    requires ic == if pc then kc else |row|
    requires iu == if pu then ku else |row| + if pc then 0 else 1
    ensures 0 <= ic < |Place(Place(row, pc, kc, e1), pu, ku, e1)|
    ensures 0 <= iu < |Place(Place(row, pc, kc, e1), pu, ku, e1)|
    ensures Place(Place(Place(Place(row, pc, kc, e1), pu, ku, e1), true, ic, e2), true, iu, e2)
         == Place(Place(row, pc, kc, e2), pu, ku, e2)
  {
  }

  /** A second rewrite of a rewritten row, with a fresh literal, gives what one
      rewrite with that literal gives (rows with one slot per column, distinct
      names); `columns'` is the column list after the first rewrite. */
  lemma RewriteRowTwice(row: seq<Expr>, columns: seq<string>, columns': seq<string>, create: string, update: string,
                        e1: Expr, e2: Expr)
    requires |row| == |columns| && create != update
    requires columns' == columns + Appended(columns, create) + Appended(columns, update)
    ensures LastIndexOf(columns', create) < |RewriteRow(row, columns, create, update, e1)|
    ensures LastIndexOf(columns', update) < |RewriteRow(row, columns, create, update, e1)|
    ensures RewriteRow(RewriteRow(row, columns, create, update, e1), columns', create, update, e2)
         == RewriteRow(row, columns, create, update, e2)
  {
    AuditIndicesAfter(columns, create, update);
    assert create in columns' && update in columns';
    PlaceTwice(row, create in columns, LastIndexOf(columns, create), update in columns, LastIndexOf(columns, update),
               LastIndexOf(columns', create), LastIndexOf(columns', update), e1, e2);
  }

  /** RewriteRowTwice for given rows: row1 is the first rewrite, row2 the second
      and row3 one rewrite with the second literal. */
  lemma RewriteRowTwiceAt(row: seq<Expr>, columns: seq<string>, columns': seq<string>, create: string, update: string,
                          e1: Expr, e2: Expr, row1: seq<Expr>, row2: seq<Expr>, row3: seq<Expr>)
    requires |row| == |columns| && create != update
    requires columns' == columns + Appended(columns, create) + Appended(columns, update)
    requires row1 == RewriteRow(row, columns, create, update, e1)
    requires LastIndexOf(columns', create) < |row1| && LastIndexOf(columns', update) < |row1| + |Appended(columns', create)|
    requires row2 == RewriteRow(row1, columns', create, update, e2)
    requires row3 == RewriteRow(row, columns, create, update, e2)
    ensures row2 == row3
  {
    RewriteRowTwice(row, columns, columns', create, update, e1, e2);
  }

  /** Items with the same shape and the same rows are equal. */
  lemma RowsDetermineItems(a: ItemsList, b: ItemsList)
    requires a.SubSelect? == b.SubSelect? && a.Single? == b.Single? && RowsOf(a) == RowsOf(b)
    ensures a == b
  {
    match a
    case Single(row) => assert RowsOf(a)[0] == row && RowsOf(b)[0] == b.row;
    case Multi(rows) =>
    case SubSelect =>
  }

  /** A named column's slot exists in every row of well-shaped items. */
  lemma WellShapedSlot(columns: seq<string>, items: ItemsList, name: string)
    requires WellShaped(columns, items) && name in columns
    ensures SlotsExist(items, LastIndexOf(columns, name))
  {
  }

  /** Idempotence: rewriting the rewritten statement again, with a fresh
      timestamp, adds no column and no slot and equals one rewrite with the fresh
      timestamp (rows with one slot per column, distinct audit names). */
  lemma RewriteInsertTwice(s: InsertState, create: string, update: string, date1: string, date2: string)
    requires WellShaped(s.columns, s.items) && !s.items.SubSelect? && create != update
    ensures InsertSlotsExist(s, create, update)
    ensures var r1 := RewriteInsert(s, create, update, date1).value;
      && InsertSlotsExist(r1, create, update)
      && RewriteInsert(r1, create, update, date2) == RewriteInsert(s, create, update, date2)
  {
    RewriteInsertKeepsShape(s, create, update, date1);
    var r1 := RewriteInsert(s, create, update, date1).value;
    assert create in r1.columns && update in r1.columns;
    WellShapedSlot(r1.columns, r1.items, create);
    WellShapedSlot(r1.columns, r1.items, update);
    var r2 := RewriteInsert(r1, create, update, date2).value;
    var r3 := RewriteInsert(s, create, update, date2).value;
    RewriteInsertTwiceRows(s, create, update, date1, date2, r1, r2, r3);
    RowsDetermineItems(r2.items, r3.items);
  }

  /** The columns and rows half of RewriteInsertTwice, for r1 the first
      rewrite, r2 the second and r3 one rewrite with the second timestamp. */
  lemma RewriteInsertTwiceRows(s: InsertState, create: string, update: string, date1: string, date2: string,
                               r1: InsertState, r2: InsertState, r3: InsertState)
    requires WellShaped(s.columns, s.items) && !s.items.SubSelect? && create != update
    requires InsertSlotsExist(s, create, update) && r1 == RewriteInsert(s, create, update, date1).value
    requires InsertSlotsExist(r1, create, update) && r2 == RewriteInsert(r1, create, update, date2).value
    requires r3 == RewriteInsert(s, create, update, date2).value
    ensures r2.columns == r3.columns && RowsOf(r2.items) == RowsOf(r3.items)
  {
    var columns' := s.columns + Appended(s.columns, create) + Appended(s.columns, update);
    assert r1.columns == columns';
    AuditIndicesAfter(s.columns, create, update);
    assert create in columns' && update in columns';
    assert r2.columns == columns' == r3.columns;
    forall j | 0 <= j < |RowsOf(s.items)|
      ensures RowsOf(r2.items)[j] == RowsOf(r3.items)[j]
    {
      RewriteRowTwiceAt(RowsOf(s.items)[j], s.columns, columns', create, update, Timestamp(date1), Timestamp(date2),
                        RowsOf(r1.items)[j], RowsOf(r2.items)[j], RowsOf(r3.items)[j]);
    }
  }

  /** Shape idempotence even when both audit names are the same: a second
      rewrite adds no column and no slot. */
  lemma RewriteInsertShapeStable(s: InsertState, create: string, update: string, date1: string, date2: string)
    requires WellShaped(s.columns, s.items) && !s.items.SubSelect?
    ensures InsertSlotsExist(s, create, update)
    ensures var r1 := RewriteInsert(s, create, update, date1).value;
      && InsertSlotsExist(r1, create, update)
      && var r2 := RewriteInsert(r1, create, update, date2).value;
      && r2.columns == r1.columns
      && |RowsOf(r2.items)| == |RowsOf(r1.items)|
      && forall j :: 0 <= j < |RowsOf(r1.items)| ==> |RowsOf(r2.items)[j]| == |RowsOf(r1.items)[j]|
  {
    RewriteInsertKeepsShape(s, create, update, date1);
    var r1 := RewriteInsert(s, create, update, date1).value;
    assert create in r1.columns && update in r1.columns;
    RewriteInsertKeepsShape(r1, create, update, date2);
    var r2 := RewriteInsert(r1, create, update, date2).value;
    forall j | 0 <= j < |RowsOf(r1.items)|
      ensures |RowsOf(r2.items)[j]| == |RowsOf(r1.items)[j]|
    {
      RewriteRowEffect(RowsOf(r1.items)[j], r1.columns, create, update, Timestamp(date2));
    }
  }

  /** Each audit column ends up in the column list exactly once, and in every
      row its slot holds the same timestamp (distinct names, each named at most
      once before, rows with one slot per column). */
  lemma RewriteInsertAuditColumnsOnce(s: InsertState, create: string, update: string, date: string)
    requires WellShaped(s.columns, s.items) && !s.items.SubSelect? && create != update
    requires multiset(s.columns)[create] <= 1 && multiset(s.columns)[update] <= 1
    ensures InsertSlotsExist(s, create, update)
    ensures var r := RewriteInsert(s, create, update, date).value;
      && multiset(r.columns)[create] == 1 && multiset(r.columns)[update] == 1
      && forall j :: 0 <= j < |RowsOf(r.items)| ==>
           && RowsOf(r.items)[j][LastIndexOf(r.columns, create)] == Timestamp(date)
           && RowsOf(r.items)[j][LastIndexOf(r.columns, update)] == Timestamp(date)
  {
    var r := RewriteInsert(s, create, update, date).value;
    RewriteInsertKeepsShape(s, create, update, date);
    AuditIndicesAfter(s.columns, create, update);
    AuditCountsAfter(s.columns, create, update);
    forall j | 0 <= j < |RowsOf(r.items)|
      ensures RowsOf(r.items)[j][LastIndexOf(r.columns, create)] == Timestamp(date)
      ensures RowsOf(r.items)[j][LastIndexOf(r.columns, update)] == Timestamp(date)
    {
      RewriteRowEffect(RowsOf(s.items)[j], s.columns, create, update, Timestamp(date));
    }
  }

  /** With distinct names each named at most once, the rewritten column list
      names each exactly once. */
  lemma AuditCountsAfter(columns: seq<string>, create: string, update: string)
    requires create != update && multiset(columns)[create] <= 1 && multiset(columns)[update] <= 1
    ensures multiset(columns + Appended(columns, create) + Appended(columns, update))[create] == 1
    ensures multiset(columns + Appended(columns, create) + Appended(columns, update))[update] == 1
  {
    assert multiset(columns + Appended(columns, create) + Appended(columns, update))
        == multiset(columns) + multiset(Appended(columns, create)) + multiset(Appended(columns, update));
    if create in columns {
      assert multiset(columns)[create] >= 1;
    }
    if update in columns {
      assert multiset(columns)[update] >= 1;
    }
  }

  /** intoValueWithIndex: overwrite slot `index` of every row with the timestamp;
      a sub-select is refused before anything changes. */
  method IntoValueWithIndex(index: nat, columnValue: string, insert: Insert) returns (o: Outcome)
    requires SlotsExist(insert.itemsList, index)
    modifies insert
    ensures insert.columns == old(insert.columns)
    ensures old(insert.itemsList).SubSelect? ==> o == Fail(UnsupportedOperation) && insert.itemsList == old(insert.itemsList)
    ensures !old(insert.itemsList).SubSelect? ==>
      o == Pass && insert.itemsList == SetSlot(old(insert.itemsList), index, Timestamp(columnValue))
  {
    var e := Timestamp(columnValue);
    match insert.itemsList
    case SubSelect =>
      o := Fail(UnsupportedOperation);
    case Single(row) =>
      assert RowsOf(insert.itemsList)[0] == row;
      insert.itemsList := Single(row[index := e]);
      o := Pass;
    case Multi(rows) =>
      assert forall t :: 0 <= t < |rows| ==> index < |rows[t]| by {
        assert forall t :: 0 <= t < |rows| ==> rows[t] == RowsOf(insert.itemsList)[t];
      }
      var j := 0;
      while j < |rows|
        invariant 0 <= j <= |rows|
        invariant insert.columns == old(insert.columns)
        invariant insert.itemsList.Multi? && |insert.itemsList.rows| == |rows|
        invariant forall t :: 0 <= t < j ==> insert.itemsList.rows[t] == rows[t][index := e]
        invariant forall t :: j <= t < |rows| ==> insert.itemsList.rows[t] == rows[t]
      {
        insert.itemsList := Multi(insert.itemsList.rows[j := rows[j][index := e]]);
        j := j + 1;
      }
      assert insert.itemsList.rows == SetSlot(Multi(rows), index, e).rows;
      o := Pass;
  }

  /** intoValue: append the column name, then the timestamp to every row; for a
      sub-select the column has already been appended when the refusal comes. */
  method IntoValue(columnName: string, columnValue: string, insert: Insert) returns (o: Outcome)
    modifies insert
    ensures insert.columns == old(insert.columns) + [columnName]
    ensures old(insert.itemsList).SubSelect? ==> o == Fail(UnsupportedOperation) && insert.itemsList == old(insert.itemsList)
    ensures !old(insert.itemsList).SubSelect? ==>
      o == Pass && insert.itemsList == AppendSlot(old(insert.itemsList), Timestamp(columnValue))
  {
    insert.columns := insert.columns + [columnName];
    var e := Timestamp(columnValue);
    match insert.itemsList
    case SubSelect =>
      o := Fail(UnsupportedOperation);
    case Single(row) =>
      insert.itemsList := Single(row + [e]);
      o := Pass;
    case Multi(rows) =>
      var j := 0;
      while j < |rows|
        invariant 0 <= j <= |rows|
        invariant insert.columns == old(insert.columns) + [columnName]
        invariant insert.itemsList.Multi? && |insert.itemsList.rows| == |rows|
        invariant forall t :: 0 <= t < j ==> insert.itemsList.rows[t] == rows[t] + [e]
        invariant forall t :: j <= t < |rows| ==> insert.itemsList.rows[t] == rows[t]
      {
        insert.itemsList := Multi(insert.itemsList.rows[j := rows[j] + [e]]);
        j := j + 1;
      }
      assert insert.itemsList.rows == AppendSlot(Multi(rows), e).rows;
      o := Pass;
  }
}

=== FILE: interceptor.dfy ===
/** The interceptor itself: its configuration, the prepare phase that rewrites
    INSERT and UPDATE statements, and the bind phase that prunes parameter
    mappings. The host's reflective access, the SQL parser and serialiser, the
    clock and the call to the next interceptor are outside the model: the parsed
    statement, the statement kind and the formatted time are parameters, and
    `written` reports whether the rewritten SQL would be stored back. */
module Interceptor {
  import opened Statements
  import opened Columns
  import opened IgnoreTables
  import opened Configuration
  import opened InsertRewrite
  import opened UpdateRewrite
  import opened ParameterMappings

  /** The scan of the INSERT column list: for each audit column, whether it is
      named and, if so, the index of its last occurrence (0 when absent). */
  method ScanInsertColumns(columns: seq<string>, createName: string, updateName: string)
    returns (containsCreate: bool, createIndex: int, containsModify: bool, modifyIndex: int)
    ensures containsCreate == (createName in columns)
    ensures createIndex == if containsCreate then LastIndexOf(columns, createName) else 0
    ensures containsModify == (updateName in columns)
    ensures modifyIndex == if containsModify then LastIndexOf(columns, updateName) else 0
  {
    containsCreate, containsModify := false, false;
    createIndex, modifyIndex := 0, 0;
    for i := 0 to |columns|
      invariant containsCreate == (createName in columns[..i])
      invariant createIndex == if containsCreate then LastIndexOf(columns[..i], createName) else 0
      invariant containsModify == (updateName in columns[..i])
      invariant modifyIndex == if containsModify then LastIndexOf(columns[..i], updateName) else 0
    {
      assert columns[..i + 1][..i] == columns[..i];
      assert columns[..i + 1] == columns[..i] + [columns[i]];
      if columns[i] == createName {
        containsCreate := true;
        createIndex := i;
      }
      if columns[i] == updateName {
        containsModify := true;
        modifyIndex := i;
      }
    }
    assert columns[..|columns|] == columns;
  }

  /** The scan of the UPDATE set-list for the update column. */
  method ScanUpdateColumns(columns: seq<string>, updateName: string) returns (containsModify: bool, modifyIndex: int)
    ensures containsModify == (updateName in columns)
    ensures modifyIndex == if containsModify then LastIndexOf(columns, updateName) else 0
  {
    containsModify, modifyIndex := false, 0;
    for i := 0 to |columns|
      invariant containsModify == (updateName in columns[..i])
      invariant modifyIndex == if containsModify then LastIndexOf(columns[..i], updateName) else 0
    {
      assert columns[..i + 1][..i] == columns[..i];
      assert columns[..i + 1] == columns[..i] + [columns[i]];
      if columns[i] == updateName {
        containsModify := true;
        modifyIndex := i;
      }
    }
    assert columns[..|columns|] == columns;
  }

  /** The loop of the UPDATE branch: for each target table that no pattern
      matches, one rewrite pass; `written` tells whether there was any. */
  method RewriteTables(update: Update, patterns: seq<string>, column: string, currentDate: string,
                       matches: (string, string) -> bool)
    returns (written: bool)
    requires UpdateSlotsExist(UpdateState(update.columns, update.expressions), column,
                              |KeptTables(update.tables, patterns, matches)|)
    modifies update
    ensures written == (|KeptTables(update.tables, patterns, matches)| > 0)
    ensures UpdateState(update.columns, update.expressions)
         == RewriteUpdatePasses(UpdateState(old(update.columns), old(update.expressions)), column, currentDate,
                                |KeptTables(update.tables, patterns, matches)|)
  {
    written := false;
    var tableList := update.tables;
    ghost var before := UpdateState(update.columns, update.expressions);
    ghost var total := |KeptTables(tableList, patterns, matches)|;
    ghost var passes := 0;
    for t := 0 to |tableList|
      invariant passes == |KeptTables(tableList[..t], patterns, matches)| && passes <= total
      invariant written == (passes > 0)
      invariant UpdateState(update.columns, update.expressions) == RewriteUpdatePasses(before, column, currentDate, passes)
    {
      var visited;
      passes, visited := VisitTable(update, tableList, t, patterns, column, currentDate, matches, before, passes, total);
      written := written || visited;
    }
    assert tableList[..|tableList|] == tableList;
  }

  /** The body of the RewriteTables loop, as its own method: table t is skipped
      when a pattern matches it, and otherwise gets the next rewrite pass. */
  method VisitTable(update: Update, tableList: seq<string>, t: nat, patterns: seq<string>, column: string,
                    currentDate: string, matches: (string, string) -> bool,
                    ghost before: UpdateState, ghost passes: nat, ghost total: nat)
    returns (ghost passes': nat, visited: bool)
    requires t < |tableList| && total == |KeptTables(tableList, patterns, matches)|
    requires passes == |KeptTables(tableList[..t], patterns, matches)| && passes <= total
    requires UpdateSlotsExist(before, column, total)
    requires UpdateState(update.columns, update.expressions) == RewriteUpdatePasses(before, column, currentDate, passes)
    modifies update
    ensures passes' == |KeptTables(tableList[..t + 1], patterns, matches)| && passes' <= total
    ensures visited == !MatchesIgnoreTables(patterns, tableList[t], matches)
    ensures passes' == passes + if visited then 1 else 0
    ensures UpdateState(update.columns, update.expressions) == RewriteUpdatePasses(before, column, currentDate, passes')
  {
    KeptTablesStep(tableList, t, patterns, matches);
    KeptTablesPrefix(tableList, t + 1, patterns, matches);
    passes' := passes;
    visited := !MatchesIgnoreTables(patterns, tableList[t], matches);
    if visited {
      NextPass(update, column, currentDate, before, passes, total);
      passes' := passes + 1;
    }
  }

  /** Part of the RewriteTables loop body: pass number passes + 1 of the UPDATE
      branch over the statement that held `before`. */
  method NextPass(update: Update, column: string, currentDate: string,
                  ghost before: UpdateState, ghost passes: nat, ghost total: nat)
    requires UpdateSlotsExist(before, column, total) && passes < total
    requires UpdateState(update.columns, update.expressions) == RewriteUpdatePasses(before, column, currentDate, passes)
    modifies update
    ensures UpdateState(update.columns, update.expressions) == RewriteUpdatePasses(before, column, currentDate, passes + 1)
  {
    RewriteUpdatePassesStep(before, column, currentDate, passes, total);
    UpdateTable(update, column, currentDate);
  }

  /** One pass of the UPDATE branch, for one non-ignored target table. */
  method UpdateTable(update: Update, column: string, currentDate: string)
    requires UpdateSlotExists(UpdateState(update.columns, update.expressions), column)
    modifies update
    ensures UpdateState(update.columns, update.expressions)
         == RewriteUpdate(UpdateState(old(update.columns), old(update.expressions)), column, currentDate)
  {
    var containsModify, modifyIndex := ScanUpdateColumns(update.columns, column);
    if containsModify {
      UpdateValueWithIndex(modifyIndex, currentDate, update);
    } else {
      UpdateValue(column, currentDate, update);
    }
  }

  /** The UPDATE branch of the bind phase: one pruning per non-ignored table;
      after a successful first pruning the others change nothing. */
  method PruneForUpdate(tables: seq<string>, patterns: seq<string>, boundSql: BoundSql,
                        createProperty: string, updateProperty: string, matches: (string, string) -> bool)
    returns (o: Outcome)
    modifies boundSql
    ensures |KeptTables(tables, patterns, matches)| > 0 ==>
      Pruned(boundSql.parameterMappings, o) == PruneMappings(old(boundSql.parameterMappings), createProperty, updateProperty)
    ensures |KeptTables(tables, patterns, matches)| == 0 ==> o == Pass && boundSql.parameterMappings == old(boundSql.parameterMappings)
  {
    o := Pass;
    ghost var before := boundSql.parameterMappings;
    ghost var calls := 0;
    for t := 0 to |tables|
      invariant calls == |KeptTables(tables[..t], patterns, matches)|
      invariant o == Pass
      invariant calls == 0 ==> boundSql.parameterMappings == before
      invariant calls > 0 ==> Pruned(boundSql.parameterMappings, Pass) == PruneMappings(before, createProperty, updateProperty)
    {
      KeptTablesStep(tables, t, patterns, matches);
      if !MatchesIgnoreTables(patterns, tables[t], matches) {
        PruneMappingsAgain(before, boundSql.parameterMappings, createProperty, updateProperty);
        o := HandleParameterMapping(boundSql, createProperty, updateProperty);
        calls := calls + 1;
        if o.Fail? {
          KeptTablesPrefix(tables, t + 1, patterns, matches);
          return;
        }
      }
    }
    assert tables[..|tables|] == tables;
  }

  class AddDateInterceptor {
    var createDateColumnName: string
    var updateDateColumnName: string
    /** Patterns of tables that get no audit columns. */
    var ignoreTableList: seq<string>

    /** setProperties: the two column names with their defaults, and the
        comma-separated ignore patterns (none when the value is blank). */
    method SetProperties(properties: map<string, string>)
      modifies this
      ensures createDateColumnName == ConfigOf(properties).createDateColumnName
      ensures updateDateColumnName == ConfigOf(properties).updateDateColumnName
      ensures ignoreTableList == ConfigOf(properties).ignoreTableList
    {
      createDateColumnName := GetProperty(properties, "createDateColumnName", DefaultCreateColumn);
      updateDateColumnName := GetProperty(properties, "updateDateColumnName", DefaultUpdateColumn);
      var ignoreTable := GetProperty(properties, "ignoreTables", "");
      var patterns: seq<string>;
      if |Trim(ignoreTable)| > 0 {
        patterns := JavaSplit(ignoreTable);
      } else {
        patterns := [];
      }
      assert patterns == IgnoreTableList(ignoreTable);
      ignoreTableList := patterns;
    }

    /** What the prepare phase leaves in an INSERT on `table`: nothing changed
        for an ignored table; for a sub-select the refusal, with the create column
        already appended when it was absent; otherwise the rewritten statement,
        to be written back. */
    ghost predicate InsertPrepared(table: string, before: InsertState, after: InsertState, o: Outcome, written: bool,
                                   currentDate: string, matches: (string, string) -> bool)
      reads this
      requires !MatchesIgnoreTables(ignoreTableList, table, matches) ==>
        InsertSlotsExist(before, createDateColumnName, updateDateColumnName)
    {
      if MatchesIgnoreTables(ignoreTableList, table, matches) then
        o == Pass && !written && after == before
      else if before.items.SubSelect? then
        o == Fail(UnsupportedOperation) && !written
        && after == InsertState(before.columns + Appended(before.columns, createDateColumnName), before.items)
      else
        o == Pass && written && after == RewriteInsert(before, createDateColumnName, updateDateColumnName, currentDate).value
    }

    /** What the prepare phase leaves in an UPDATE on `tables`: one rewrite pass
        per non-ignored table, written back when there was at least one. */
    ghost predicate UpdatePrepared(tables: seq<string>, before: UpdateState, after: UpdateState, o: Outcome, written: bool,
                                   currentDate: string, matches: (string, string) -> bool)
      reads this
      requires UpdateSlotsExist(before, updateDateColumnName, |KeptTables(tables, ignoreTableList, matches)|)
    {
      var passes := |KeptTables(tables, ignoreTableList, matches)|;
      && o == Pass && written == (passes > 0)
      && after == RewriteUpdatePasses(before, updateDateColumnName, currentDate, passes)
    }

    /** The INSERT branch of the prepare phase. */
    method PrepareInsert(insert: Insert, currentDate: string, matches: (string, string) -> bool)
      returns (o: Outcome, written: bool)
      requires !MatchesIgnoreTables(ignoreTableList, insert.table, matches) ==>
        InsertSlotsExist(InsertState(insert.columns, insert.itemsList), createDateColumnName, updateDateColumnName)
      modifies insert
      ensures InsertPrepared(insert.table, InsertState(old(insert.columns), old(insert.itemsList)),
                             InsertState(insert.columns, insert.itemsList), o, written, currentDate, matches)
    {
      o, written := Pass, false;
      if !MatchesIgnoreTables(ignoreTableList, insert.table, matches) {
        var containsCreate, createIndex, containsModify, modifyIndex :=
          ScanInsertColumns(insert.columns, createDateColumnName, updateDateColumnName);
        if containsCreate {
          o := IntoValueWithIndex(createIndex, currentDate, insert);
        } else {
          o := IntoValue(createDateColumnName, currentDate, insert);
        }
        if o.Fail? {
          return;
        }
        if containsModify {
          o := IntoValueWithIndex(modifyIndex, currentDate, insert);
        } else {
          o := IntoValue(updateDateColumnName, currentDate, insert);
        }
        written := o.Pass?;
      }
    }

    /** The UPDATE branch of the prepare phase: one pass per non-ignored table. */
    method PrepareUpdate(update: Update, currentDate: string, matches: (string, string) -> bool)
      returns (o: Outcome, written: bool)
      requires UpdateSlotsExist(UpdateState(update.columns, update.expressions), updateDateColumnName,
                                |KeptTables(update.tables, ignoreTableList, matches)|)
      modifies update
      ensures UpdatePrepared(update.tables, UpdateState(old(update.columns), old(update.expressions)),
                             UpdateState(update.columns, update.expressions), o, written, currentDate, matches)
    {
      o := Pass;
      written := RewriteTables(update, ignoreTableList, updateDateColumnName, currentDate, matches);
    }

    /** The prepare phase of intercept, with the SQL already parsed into
        `statement` and `currentDate` the formatted current time. */
    method Prepare(kind: SqlCommandType, statement: Statement, currentDate: string, matches: (string, string) -> bool)
      returns (o: Outcome, written: bool)
      requires kind.InsertCommand? && statement.InsertStatement?
               && !MatchesIgnoreTables(ignoreTableList, statement.insert.table, matches) ==>
        InsertSlotsExist(InsertState(statement.insert.columns, statement.insert.itemsList),
                         createDateColumnName, updateDateColumnName)
      requires kind.UpdateCommand? && statement.UpdateStatement? ==>
        UpdateSlotsExist(UpdateState(statement.update.columns, statement.update.expressions), updateDateColumnName,
                         |KeptTables(statement.update.tables, ignoreTableList, matches)|)
      modifies Footprint(statement)
      ensures !kind.InsertCommand? && !kind.UpdateCommand? ==> o == Pass && !written && unchanged(Footprint(statement))
      ensures (kind.InsertCommand? && !statement.InsertStatement?) || (kind.UpdateCommand? && !statement.UpdateStatement?) ==>
        o == Fail(ClassCast) && !written && unchanged(Footprint(statement))
      ensures kind.InsertCommand? && statement.InsertStatement? ==>
        var insert := statement.insert;
        InsertPrepared(insert.table, InsertState(old(insert.columns), old(insert.itemsList)),
                       InsertState(insert.columns, insert.itemsList), o, written, currentDate, matches)
      ensures kind.UpdateCommand? && statement.UpdateStatement? ==>
        var update := statement.update;
        UpdatePrepared(update.tables, UpdateState(old(update.columns), old(update.expressions)),
                       UpdateState(update.columns, update.expressions), o, written, currentDate, matches)
    {
      o, written := Pass, false;
      if kind.InsertCommand? {
        if !statement.InsertStatement? {
          o := Fail(ClassCast);
          return;
        }
        o, written := PrepareInsert(statement.insert, currentDate, matches);
      } else if kind.UpdateCommand? {
        if !statement.UpdateStatement? {
          o := Fail(ClassCast);
          return;
        }
        o, written := PrepareUpdate(statement.update, currentDate, matches);
      }
    }

    /** The bind phase of intercept: prune the bound SQL's parameter mappings
        for a non-ignored INSERT or an UPDATE with a non-ignored table;
        `camelCase` stands for StringUtil.camelCase. */
    method SetParameters(kind: SqlCommandType, statement: Statement, boundSql: BoundSql,
                         matches: (string, string) -> bool, camelCase: string -> string)
      returns (o: Outcome)
      modifies boundSql
      ensures (kind.InsertCommand? && !statement.InsertStatement?) || (kind.UpdateCommand? && !statement.UpdateStatement?) ==>
        o == Fail(ClassCast) && boundSql.parameterMappings == old(boundSql.parameterMappings)
      ensures
        var handled := (kind.InsertCommand? && statement.InsertStatement?
                          && !MatchesIgnoreTables(ignoreTableList, statement.insert.table, matches))
                    || (kind.UpdateCommand? && statement.UpdateStatement?
                          && |KeptTables(statement.update.tables, ignoreTableList, matches)| > 0);
        handled ==> Pruned(boundSql.parameterMappings, o)
                    == PruneMappings(old(boundSql.parameterMappings),
                                     camelCase(createDateColumnName), camelCase(updateDateColumnName))
      ensures ((kind.InsertCommand? && statement.InsertStatement?
                 && MatchesIgnoreTables(ignoreTableList, statement.insert.table, matches))
           || (kind.UpdateCommand? && statement.UpdateStatement?
                 && |KeptTables(statement.update.tables, ignoreTableList, matches)| == 0)
           || (!kind.InsertCommand? && !kind.UpdateCommand?)) ==>
        o == Pass && boundSql.parameterMappings == old(boundSql.parameterMappings)
    {
      o := Pass;
      var createProperty := camelCase(createDateColumnName);
      var updateProperty := camelCase(updateDateColumnName);
      if kind.InsertCommand? {
        if !statement.InsertStatement? {
          o := Fail(ClassCast);
          return;
        }
        if !MatchesIgnoreTables(ignoreTableList, statement.insert.table, matches) {
          o := HandleParameterMapping(boundSql, createProperty, updateProperty);
        }
      } else if kind.UpdateCommand? {
        if !statement.UpdateStatement? {
          o := Fail(ClassCast);
          return;
        }
        o := PruneForUpdate(statement.update.tables, ignoreTableList, boundSql, createProperty, updateProperty, matches);
      }
    }
  }
}

=== FILE: parameter_mappings.dfy ===
/** The bind-phase reconciliation: parameter mappings whose property is the
    camel-cased name of an audit column are removed from the bound SQL's list,
    in place, in one front-to-back pass with an iterator. */
module ParameterMappings {
  import opened Statements

  /** The mapping binds one of the two injected columns. */
  predicate Injected(m: ParameterMapping, createProperty: string, updateProperty: string)
  {
    m.property == createProperty || m.property == updateProperty
  }

  /** The mappings that survive, in their original order. */
  function Prune(mappings: seq<ParameterMapping>, createProperty: string, updateProperty: string): (r: seq<ParameterMapping>)
    ensures |r| <= |mappings|
  {
    if mappings == [] then []
    else
      (if Injected(mappings[0], createProperty, updateProperty) then [] else [mappings[0]])
        + Prune(mappings[1..], createProperty, updateProperty)
  }

  /** No surviving mapping reads an injected property. */
  lemma {:induction false} PruneRemovesInjected(mappings: seq<ParameterMapping>, createProperty: string, updateProperty: string)
    ensures forall i :: 0 <= i < |Prune(mappings, createProperty, updateProperty)| ==>
      !Injected(Prune(mappings, createProperty, updateProperty)[i], createProperty, updateProperty)
  {
    if mappings != [] {
      PruneRemovesInjected(mappings[1..], createProperty, updateProperty);
      var rest := Prune(mappings[1..], createProperty, updateProperty);
      var r := Prune(mappings, createProperty, updateProperty);
      if !Injected(mappings[0], createProperty, updateProperty) {
        forall i | 0 <= i < |r|
          ensures !Injected(r[i], createProperty, updateProperty)
        {
          if i > 0 {
            assert r[i] == rest[i - 1];
          } else {
            assert r[0] == mappings[0];
          }
        }
      } else {
        assert r == rest;
      }
    }
  }

  /** Pruning a concatenation prunes each part. */
  lemma {:induction false} PruneConcat(a: seq<ParameterMapping>, b: seq<ParameterMapping>, createProperty: string, updateProperty: string)
    ensures Prune(a + b, createProperty, updateProperty)
         == Prune(a, createProperty, updateProperty) + Prune(b, createProperty, updateProperty)
  {
    if a == [] {
      assert a + b == b;
    } else {
      assert (a + b)[0] == a[0];
      assert (a + b)[1..] == a[1..] + b;
      PruneConcat(a[1..], b, createProperty, updateProperty);
      var head := if Injected(a[0], createProperty, updateProperty) then [] else [a[0]];
      assert Prune(a + b, createProperty, updateProperty) == head + Prune(a[1..] + b, createProperty, updateProperty);
      assert Prune(a, createProperty, updateProperty) == head + Prune(a[1..], createProperty, updateProperty);
    }
  }

  /** Every other mapping survives as often as it occurred; injected ones vanish. */
  lemma {:induction false} PruneCounts(mappings: seq<ParameterMapping>, createProperty: string, updateProperty: string)
    ensures forall m :: multiset(Prune(mappings, createProperty, updateProperty))[m]
                     == if Injected(m, createProperty, updateProperty) then 0 else multiset(mappings)[m]
  {
    if mappings != [] {
      PruneCounts(mappings[1..], createProperty, updateProperty);
      assert mappings == [mappings[0]] + mappings[1..];
    }
  }

  /** `sub` is `s` with some elements left out, the rest in their order. */
  ghost predicate IsSubsequence(sub: seq<ParameterMapping>, s: seq<ParameterMapping>)
    decreases |s|
  {
    if sub == [] then true
    else if s == [] then false
    else (sub[0] == s[0] && IsSubsequence(sub[1..], s[1..])) || IsSubsequence(sub, s[1..])
  }

  /** The surviving mappings keep their relative order. */
  lemma {:induction false} PruneKeepsOrder(mappings: seq<ParameterMapping>, createProperty: string, updateProperty: string)
    ensures IsSubsequence(Prune(mappings, createProperty, updateProperty), mappings)
  {
    if mappings != [] {
      PruneKeepsOrder(mappings[1..], createProperty, updateProperty);
      var rest := Prune(mappings[1..], createProperty, updateProperty);
      if !Injected(mappings[0], createProperty, updateProperty) {
        var pruned := Prune(mappings, createProperty, updateProperty);
        assert pruned == [mappings[0]] + rest;
        assert pruned[0] == mappings[0] && pruned[1..] == rest;
      } else if rest != [] {
        assert Prune(mappings, createProperty, updateProperty) == rest;
      }
    }
  }

  /** Pruning changes nothing exactly when no mapping is injected. */
  lemma {:induction false} PruneUnchanged(mappings: seq<ParameterMapping>, createProperty: string, updateProperty: string)
    ensures Prune(mappings, createProperty, updateProperty) == mappings
        <==> forall i :: 0 <= i < |mappings| ==> !Injected(mappings[i], createProperty, updateProperty)
  {
    if mappings != [] {
      PruneUnchanged(mappings[1..], createProperty, updateProperty);
      var rest := Prune(mappings[1..], createProperty, updateProperty);
      if Injected(mappings[0], createProperty, updateProperty) {
        assert |Prune(mappings, createProperty, updateProperty)| < |mappings|;
      } else {
        assert forall i :: 1 <= i < |mappings| ==> mappings[i] == mappings[1..][i - 1];
      }
    }
  }

  /** Pruning twice is pruning once. */
  lemma PruneIdempotent(mappings: seq<ParameterMapping>, createProperty: string, updateProperty: string)
    ensures Prune(Prune(mappings, createProperty, updateProperty), createProperty, updateProperty)
         == Prune(mappings, createProperty, updateProperty)
  {
    PruneRemovesInjected(mappings, createProperty, updateProperty);
    PruneUnchanged(Prune(mappings, createProperty, updateProperty), createProperty, updateProperty);
  }

  /** The first mapping reading `property`, or -1. */
  function IndexOfProperty(mappings: seq<ParameterMapping>, property: string): (r: int)
    ensures -1 <= r < |mappings|
    ensures r == -1 <==> forall i :: 0 <= i < |mappings| ==> mappings[i].property != property
    ensures 0 <= r ==> mappings[r].property == property && forall i :: 0 <= i < r ==> mappings[i].property != property
  {
    if mappings == [] then -1
    else if mappings[0].property == property then 0
    else
      var k := IndexOfProperty(mappings[1..], property);
      if k == -1 then -1 else k + 1
  }

  /** The list handleParameterMapping leaves and how it ends. */
  datatype Pruned = Pruned(mappings: seq<ParameterMapping>, outcome: Outcome)

  /** When both properties are the same name, the first mapping reading it is
      removed twice through one iterator step, which raises IllegalStateException
      after the first removal; otherwise every injected mapping is removed. */
  function PruneMappings(mappings: seq<ParameterMapping>, createProperty: string, updateProperty: string): (r: Pruned)
  {
    var k := IndexOfProperty(mappings, createProperty);
    if createProperty == updateProperty && 0 <= k then Pruned(mappings[..k] + mappings[k + 1..], Fail(IllegalState))
    else Pruned(Prune(mappings, createProperty, updateProperty), Pass)
  }

  /** The two ways handleParameterMapping can end, from the caller's side. */
  lemma PruneMappingsOutcome(mappings: seq<ParameterMapping>, createProperty: string, updateProperty: string)
    ensures var r := PruneMappings(mappings, createProperty, updateProperty);
      && (r.outcome == Pass <==>
            createProperty != updateProperty || forall i :: 0 <= i < |mappings| ==> mappings[i].property != createProperty)
      && (r.outcome == Pass ==> forall i :: 0 <= i < |r.mappings| ==> !Injected(r.mappings[i], createProperty, updateProperty))
      && (r.outcome != Pass ==> r.outcome == Fail(IllegalState) && |r.mappings| == |mappings| - 1)
  {
    var k := IndexOfProperty(mappings, createProperty);
    if createProperty == updateProperty && 0 <= k {
      assert mappings[k].property == createProperty;
    } else {
      PruneRemovesInjected(mappings, createProperty, updateProperty);
    }
  }

  /** A second call on the list a successful call left is a no-op, so repeated
      calls (one per non-ignored UPDATE table) equal a single call. */
  lemma PruneMappingsRepeat(mappings: seq<ParameterMapping>, createProperty: string, updateProperty: string)
    requires PruneMappings(mappings, createProperty, updateProperty).outcome == Pass
    ensures PruneMappings(PruneMappings(mappings, createProperty, updateProperty).mappings, createProperty, updateProperty)
         == Pruned(PruneMappings(mappings, createProperty, updateProperty).mappings, Pass)
  {
    assert PruneMappings(mappings, createProperty, updateProperty).mappings == Prune(mappings, createProperty, updateProperty);
    PruneRemovesInjected(mappings, createProperty, updateProperty);
    NothingInjected(Prune(mappings, createProperty, updateProperty), createProperty, updateProperty);
  }

  /** A list with no injected mapping goes through unchanged and successfully. */
  lemma NothingInjected(mappings: seq<ParameterMapping>, createProperty: string, updateProperty: string)
    requires forall i :: 0 <= i < |mappings| ==> !Injected(mappings[i], createProperty, updateProperty)
    ensures PruneMappings(mappings, createProperty, updateProperty) == Pruned(mappings, Pass)
  {
    PruneUnchanged(mappings, createProperty, updateProperty);
    assert createProperty == updateProperty ==> IndexOfProperty(mappings, createProperty) == -1;
  }

  /** Calling again, on the list a successful call left, answers what the
      first call answered. */
  lemma PruneMappingsAgain(before: seq<ParameterMapping>, current: seq<ParameterMapping>,
                           createProperty: string, updateProperty: string)
    requires current == before || Pruned(current, Pass) == PruneMappings(before, createProperty, updateProperty)
    ensures PruneMappings(current, createProperty, updateProperty) == PruneMappings(before, createProperty, updateProperty)
  {
    if current != before {
      PruneMappingsRepeat(before, createProperty, updateProperty);
    }
  }

  /** The iterator has walked past the first n mappings of `before`: those are
      pruned into the list's first i entries, the rest follow untouched, and when
      both properties are one name none of the first n reads it. */
  ghost predicate Walked(before: seq<ParameterMapping>, n: nat, list: seq<ParameterMapping>, i: nat,
                         createProperty: string, updateProperty: string)
  {
    && n <= |before|
    && list == Prune(before[..n], createProperty, updateProperty) + before[n..]
    && i == |Prune(before[..n], createProperty, updateProperty)|
    && (createProperty == updateProperty ==> forall t :: 0 <= t < n ==> before[t].property != createProperty)
  }

  /** One iterator step over `before`: the element under the iterator is
      before[n]; removing it (or stepping past it) walks one mapping further. */
  lemma WalkStep(before: seq<ParameterMapping>, n: nat, list: seq<ParameterMapping>, i: nat,
                 createProperty: string, updateProperty: string)
    requires Walked(before, n, list, i, createProperty, updateProperty) && i < |list|
    ensures n < |before| && list[i] == before[n]
    ensures Injected(before[n], createProperty, updateProperty) && createProperty != updateProperty ==>
      Walked(before, n + 1, list[..i] + list[i + 1..], i, createProperty, updateProperty)
    ensures !Injected(before[n], createProperty, updateProperty) ==>
      Walked(before, n + 1, list, i + 1, createProperty, updateProperty)
  {
    assert |list| == i + (|before| - n);
    var done := Prune(before[..n], createProperty, updateProperty);
    assert list[..i] == done;
    assert list[i + 1..] == before[n + 1..];
    assert before[..n + 1] == before[..n] + [before[n]];
    PruneConcat(before[..n], [before[n]], createProperty, updateProperty);
    assert [before[n]][1..] == [];
    assert before[n..] == [before[n]] + before[n + 1..];
  }

  /** Both properties are one name and the iterator reaches the first mapping
      reading it: the second removal throws, leaving everything but that mapping. */
  lemma WalkFail(before: seq<ParameterMapping>, n: nat, list: seq<ParameterMapping>, i: nat, property: string)
    requires Walked(before, n, list, i, property, property) && n < |before| && before[n].property == property
    ensures i < |list|
    ensures PruneMappings(before, property, property) == Pruned(list[..i] + list[i + 1..], Fail(IllegalState))
  {
    PruneUnchanged(before[..n], property, property);
    assert Prune(before[..n], property, property) == before[..n];
    assert list == before by {
      assert before[..n] + before[n..] == before;
    }
    assert IndexOfProperty(before, property) == n;
  }

  /** The walk over the whole list leaves the pruned list, and the call succeeds. */
  lemma WalkDone(before: seq<ParameterMapping>, list: seq<ParameterMapping>, i: nat,
                 createProperty: string, updateProperty: string)
    requires Walked(before, |before|, list, i, createProperty, updateProperty)
    ensures PruneMappings(before, createProperty, updateProperty) == Pruned(list, Pass)
  {
    assert before[..|before|] == before;
    assert list == Prune(before, createProperty, updateProperty) + [];
    assert createProperty == updateProperty ==> IndexOfProperty(before, createProperty) == -1;
  }

  /** handleParameterMapping: walk the list with an iterator, removing every
      mapping that reads an injected property; `i` is the iterator's position. */
  method HandleParameterMapping(boundSql: BoundSql, createProperty: string, updateProperty: string) returns (o: Outcome)
    modifies boundSql
    ensures Pruned(boundSql.parameterMappings, o) == PruneMappings(old(boundSql.parameterMappings), createProperty, updateProperty)
  {
    ghost var before := boundSql.parameterMappings;
    ghost var n := 0;
    var i := 0;
    assert before[..0] == [] && before[0..] == before;
    while i < |boundSql.parameterMappings|
      invariant Walked(before, n, boundSql.parameterMappings, i, createProperty, updateProperty)
      decreases |before| - n
    {
      WalkStep(before, n, boundSql.parameterMappings, i, createProperty, updateProperty);
      var pm := boundSql.parameterMappings[i];
      if pm.property == createProperty && pm.property == updateProperty {
        // the first it.remove() succeeds; the second, on the same element, throws
        WalkFail(before, n, boundSql.parameterMappings, i, createProperty);
        boundSql.parameterMappings := boundSql.parameterMappings[..i] + boundSql.parameterMappings[i + 1..];
        o := Fail(IllegalState);
        return;
      } else if pm.property == createProperty || pm.property == updateProperty {
        boundSql.parameterMappings := boundSql.parameterMappings[..i] + boundSql.parameterMappings[i + 1..];
      } else {
        i := i + 1;
      }
      n := n + 1;
    }
    if n < |before| {
      assert false;
    }
    WalkDone(before, boundSql.parameterMappings, i, createProperty, updateProperty);
    o := Pass;
  }
}

=== FILE: statements.dfy ===
/** The parts of a parsed SQL statement and of MyBatis' bound SQL that the
    interceptor reads and rewrites. Parsing and serialisation are not modelled:
    a statement is given already parsed, as these values and objects. */
module Statements {

  /** A value expression of a VALUES row or of an UPDATE set-list. */
  datatype Expr =
    | Timestamp(text: string)  // the injected literal; serialises as '<text>'
    | Other(sql: string)       // any expression the statement already held

  /** The three shapes of the items of an INSERT. */
  datatype ItemsList =
    | Single(row: seq<Expr>)          // VALUES (...)
    | Multi(rows: seq<seq<Expr>>)     // VALUES (...), (...), ...
    | SubSelect                       // INSERT ... SELECT ...

  /** The exceptions this model represents. */
  datatype Failure =
    | UnsupportedOperation  // an INSERT ... SELECT reached the value visitor
    | IllegalState          // Iterator.remove called twice on one mapping
    | ClassCast             // the parsed statement is not of the command's kind

  datatype Outcome = Pass | Fail(error: Failure)

  datatype Result<T> = Ok(value: T) | Err(error: Failure)

  /** MyBatis' statement kinds. */
  datatype SqlCommandType =
    | UnknownCommand | InsertCommand | UpdateCommand | DeleteCommand | SelectCommand | FlushCommand

  /** The value rows of an items list; a sub-select has none. */
  function RowsOf(items: ItemsList): (rows: seq<seq<Expr>>)
  {
    match items
    case Single(row) => [row]
    case Multi(rows) => rows
    case SubSelect => []
  }

  /** Every value row has a slot at index k (always true for k < 0, as an absent column's -1 index needs). */
  predicate SlotsExist(items: ItemsList, k: int)
  {
    forall j :: 0 <= j < |RowsOf(items)| ==> k < |RowsOf(items)[j]|
  }

  /** Every value row has as many slots as there are columns. */
  predicate WellShaped(columns: seq<string>, items: ItemsList)
  {
    forall j :: 0 <= j < |RowsOf(items)| ==> |RowsOf(items)[j]| == |columns|
  }

  /** A parsed INSERT: its target table, its column list and its items. */
  class Insert {
    const table: string
    var columns: seq<string>
    var itemsList: ItemsList

    constructor (table: string, columns: seq<string>, itemsList: ItemsList)
      ensures this.table == table && this.columns == columns && this.itemsList == itemsList
    {
      this.table := table;
      this.columns := columns;
      this.itemsList := itemsList;
    }
  }

  /** A parsed UPDATE: its target tables and the parallel column and expression lists of its SET. */
  class Update {
    const tables: seq<string>
    var columns: seq<string>
    var expressions: seq<Expr>

    constructor (tables: seq<string>, columns: seq<string>, expressions: seq<Expr>)
      ensures this.tables == tables && this.columns == columns && this.expressions == expressions
    {
      this.tables := tables;
      this.columns := columns;
      this.expressions := expressions;
    }
  }

  /** A statement as the parser returns it. */
  datatype Statement =
    | InsertStatement(insert: Insert)
    | UpdateStatement(update: Update)
    | OtherStatement

  /** The objects of a statement that a rewrite may change. */
  function Footprint(statement: Statement): (objects: set<object>)
  {
    match statement
    case InsertStatement(i) => {i}
    case UpdateStatement(u) => {u}
    case OtherStatement => {}
  }

  /** One positional parameter binding; only the property it reads is observed. */
  datatype ParameterMapping = ParameterMapping(property: string)

  /** The host's bound SQL, whose list of parameter mappings the bind phase prunes in place. */
  class BoundSql {
    var parameterMappings: seq<ParameterMapping>

    constructor (parameterMappings: seq<ParameterMapping>)
      ensures this.parameterMappings == parameterMappings
    {
      this.parameterMappings := parameterMappings;
    }
  }
}

=== FILE: update_rewrite.dfy ===
/** The UPDATE branch of the prepare phase, for one non-ignored target table:
    the update column's expression is overwritten when the set-list names the
    column, and otherwise the column and a timestamp are appended to the parallel
    column and expression lists. The create column is never touched. */
module UpdateRewrite {
  import opened Statements
  import opened Columns

  /** The parts of an UPDATE that the rewrite changes. */
  datatype UpdateState = UpdateState(columns: seq<string>, expressions: seq<Expr>)

  /** The expression slot the rewrite overwrites exists. */
  predicate UpdateSlotExists(s: UpdateState, update: string)
  {
    LastIndexOf(s.columns, update) < |s.expressions|
  }

  /** Every one of `passes` rewrites of the same statement finds its slot: after
      the first pass appends the column, later passes overwrite at its new index.
      With no pass, nothing is read. */
  predicate UpdateSlotsExist(s: UpdateState, update: string, passes: nat)
  {
    passes >= 1 ==>
      if update in s.columns then LastIndexOf(s.columns, update) < |s.expressions|
      else passes >= 2 ==> |s.columns| <= |s.expressions|
  }

  /** One rewrite pass with timestamp text `date`. */
  function RewriteUpdate(s: UpdateState, update: string, date: string): (r: UpdateState)
    requires UpdateSlotExists(s, update)
    ensures update in r.columns
  {
    if update in s.columns then UpdateState(s.columns, s.expressions[LastIndexOf(s.columns, update) := Timestamp(date)])
    else UpdateState(s.columns + [update], s.expressions + [Timestamp(date)])
  }

  /** Present: only the recorded expression is overwritten. Absent: the column
      and the timestamp are appended. No other column count changes, so the
      create column is neither added nor removed. */
  lemma RewriteUpdateEffect(s: UpdateState, update: string, date: string)
    requires UpdateSlotExists(s, update)
    ensures var r := RewriteUpdate(s, update, date);
      && r.columns == s.columns + Appended(s.columns, update)
      && |r.expressions| == |s.expressions| + |Appended(s.columns, update)|
      && (forall i :: 0 <= i < |s.expressions| ==>
            r.expressions[i] == if i == LastIndexOf(s.columns, update) then Timestamp(date) else s.expressions[i])
      && (forall i :: |s.expressions| <= i < |r.expressions| ==> r.expressions[i] == Timestamp(date))
      && forall name :: name != update ==> multiset(r.columns)[name] == multiset(s.columns)[name]
  {
  }

  /** `passes` rewrite passes over the same statement, one per non-ignored target
      table, all with the same timestamp text. */
  function RewriteUpdatePasses(s: UpdateState, update: string, date: string, passes: nat): (r: UpdateState)
    requires UpdateSlotsExist(s, update, passes)
    ensures passes == 0 ==> r == s
    ensures passes > 0 ==> r.columns == s.columns + Appended(s.columns, update)
    ensures passes > 0 ==> |r.expressions| == |s.expressions| + |Appended(s.columns, update)|
    ensures UpdateSlotsExist(s, update, passes + 1) ==> UpdateSlotExists(r, update)
    decreases passes
  {
    if passes == 0 then s
    else
      var prior := RewriteUpdatePasses(s, update, date, passes - 1);
      assert update !in s.columns && passes > 1 ==> LastIndexOf(prior.columns, update) == |s.columns|;
      RewriteUpdate(prior, update, date)
  }

  /** Pass number passes + 1, within the planned total, finds its slot and
      rewrites what the earlier passes left. */
  lemma RewriteUpdatePassesStep(s: UpdateState, update: string, date: string, passes: nat, total: nat)
    requires UpdateSlotsExist(s, update, total) && passes < total
    ensures UpdateSlotsExist(s, update, passes + 1)
    ensures UpdateSlotExists(RewriteUpdatePasses(s, update, date, passes), update)
    ensures RewriteUpdatePasses(s, update, date, passes + 1)
         == RewriteUpdate(RewriteUpdatePasses(s, update, date, passes), update, date)
  {
  }

  /** A second pass over the rewritten lists, with any timestamp, adds no column
      and gives what one pass with that timestamp gives, when the column was
      present or the lists were parallel. */
  lemma RewriteUpdateTwice(s: UpdateState, update: string, date1: string, date2: string)
    requires UpdateSlotExists(s, update)
    requires update !in s.columns ==> |s.columns| == |s.expressions|
    ensures var r1 := RewriteUpdate(s, update, date1);
      && UpdateSlotExists(r1, update)
      && RewriteUpdate(r1, update, date2) == RewriteUpdate(s, update, date2)
  {
    var r1 := RewriteUpdate(s, update, date1);
    if update !in s.columns {
      assert LastIndexOf(r1.columns, update) == |s.columns|;
    }
  }

  /** Any positive number of passes equals one pass when the column was present
      or the lists were parallel: the column list grows by at most one. */
  lemma {:induction false} RewriteUpdatePassesOnce(s: UpdateState, update: string, date: string, passes: nat)
    requires UpdateSlotsExist(s, update, passes) && passes > 0
    requires update !in s.columns ==> |s.columns| == |s.expressions|
    ensures UpdateSlotExists(s, update)
    ensures RewriteUpdatePasses(s, update, date, passes) == RewriteUpdate(s, update, date)
  {
    if passes > 1 {
      RewriteUpdatePassesOnce(s, update, date, passes - 1);
      RewriteUpdateTwice(s, update, date, date);
    }
  }

  /** The update column ends up named exactly once, with the timestamp at its
      slot, when it was named at most once and the lists were parallel. */
  lemma RewriteUpdateOnce(s: UpdateState, update: string, date: string)
    requires |s.columns| == |s.expressions| && multiset(s.columns)[update] <= 1
    ensures UpdateSlotExists(s, update)
    ensures var r := RewriteUpdate(s, update, date);
      && |r.columns| == |r.expressions|
      && multiset(r.columns)[update] == 1
      && r.expressions[LastIndexOf(r.columns, update)] == Timestamp(date)
  {
    var r := RewriteUpdate(s, update, date);
    if update in s.columns {
      assert multiset(s.columns)[update] >= 1;
    } else {
      assert multiset(r.columns) == multiset(s.columns) + multiset{update};
      assert LastIndexOf(r.columns, update) == |s.columns|;
    }
  }

  /** updateValueWithIndex: overwrite one expression with the timestamp. */
  method UpdateValueWithIndex(modifyDateColumnIndex: nat, currentDate: string, update: Update)
    requires modifyDateColumnIndex < |update.expressions|
    modifies update
    ensures update.columns == old(update.columns)
    ensures update.expressions == old(update.expressions)[modifyDateColumnIndex := Timestamp(currentDate)]
  {
    update.expressions := update.expressions[modifyDateColumnIndex := Timestamp(currentDate)];
  }

  /** updateValue: append the column and the timestamp to the parallel lists. */
  method UpdateValue(updateDateColumnName: string, currentDate: string, update: Update)
    modifies update
    ensures update.columns == old(update.columns) + [updateDateColumnName]
    ensures update.expressions == old(update.expressions) + [Timestamp(currentDate)]
  {
    update.columns := update.columns + [updateDateColumnName];
    update.expressions := update.expressions + [Timestamp(currentDate)];
  }
}
